=== FILE: README.md ===
# Scanner-to-browser pipeline of the QR/barcode POS scanner, in Dafny

This project models the detection-to-broadcast pipeline of an Android app
that scans QR codes and barcodes with the camera and pushes each accepted
value to browsers on the same WiFi network over a WebSocket server.

- **Analyzer** (`BarcodeAnalyzer.kt`): the pause gate and the duplicate
  filter. A batch of decoded barcodes yields at most one `ScanResult`: the
  first entry with a non-null raw value that is not a repeat of the last
  accepted value within 300 ms.
- **Server** (`WebSocketServerManager.kt`): the nullable server handle with
  `start`, `stop` and `broadcastBarcode`. The connection set changes only
  through open/close events driven by the environment. Owner callbacks
  become returned notices.
- **ScanData**, **Modes**, **Settings** (`ScanResult.kt`, `ScanMode.kt`,
  `AppSettings.kt`): the result record, the ML Kit format mapping, the
  mode enumeration and its labels, and the settings store. The store is a
  pair of finite maps, so reads with defaults and setters are pure
  functions.
- **Network** (`NetworkUtils.kt`): the WiFi integer to dotted-quad
  conversion, the interface scan fallback and the `ws://ip:port` URL.
- **ScreenCore**, **ScannerScreen**, **ScannerScreenNew** (`ui/*.kt`):
  each screen's controller logic as an event-driven state machine with no
  UI. It covers detect, dismiss, open-URL, dispose, client events, and
  (for the newer screen) mode selection and settings emissions.
  Clipboard, browser and broadcast effects are returned as labelled
  actions.
- **Wrappers**, **Ints**, **Text**: `Option`, Kotlin `Int` with `shr` and
  `and 0xff`, and decimal printing/parsing with split/join. These give
  the parsers that prove the text outputs can be read back.

Each callback is one atomic transition. Time is integer milliseconds,
passed in as `now`.

Behaviours of the code to note:
- Only `null` raw values are skipped. An empty string is a value like any
  other.
- The throttle window is measured from the last *acceptance*, not from the
  last sighting. So identical sightings 200 ms apart at 0, 200 and 400 ms
  are accepted twice (`Analyzer.ThrottleFromAcceptance`). What does hold is
  that two consecutive emissions of the same value are at least 300 ms
  apart (`Analyzer.RunSpacesRepeats`).
- A failure inside `server.start()` leaves the handle set, so `isRunning`
  is true although `start` returned false.
- The stop path reports nothing to `onError`.

## Model

| member | source | states |
|---|---|---|
| `ScanData.FromMLKitFormat` | app/src/main/java/com/scanner/app/data/ScanResult.kt:30-46 | total; `Unknown` exactly for codes outside the thirteen recognised ones, and a recognised result maps back to the given code |
| `ScanData.FromMLKitFormatInverts` | app/src/main/java/com/scanner/app/data/ScanResult.kt:31-44 | each of the thirteen named formats is produced by its own ML Kit constant; `Unknown` has no code |
| `ScanData.MLKitCodeInjective` | app/src/main/java/com/scanner/app/data/ScanResult.kt:31-44 | the thirteen recognised constants are pairwise distinct, so no two formats share a code |
| `ScanData.AllFormatsEnumerates` | app/src/main/java/com/scanner/app/data/ScanResult.kt:13-27 | the format enumeration has exactly fourteen distinct values, with `Unknown` last |
| `Modes.Ordinal` | app/src/main/java/com/scanner/app/data/ScanMode.kt:3-6 | the ordinal indexes `values()`: WiFi 0, Bluetooth 1, Copy 2 |
| `Modes.GetOrNull` | app/src/main/java/com/scanner/app/data/AppSettings.kt:32 | `values().getOrNull(i)` is present exactly for 0 <= i < 3 and then has ordinal i |
| `Modes.OrdinalRoundTrip` | app/src/main/java/com/scanner/app/data/ScanMode.kt:3-6 | a mode's ordinal looks the mode up again, and distinct modes have distinct ordinals |
| `Modes.DisplayName` | app/src/main/java/com/scanner/app/data/ScanMode.kt:8-12 | the labels "WiFi Scanner", "Bluetooth Keyboard" and "Copy Only", one per mode |
| `Modes.Description` | app/src/main/java/com/scanner/app/data/ScanMode.kt:14-18 | a non-empty subtitle that ends in "(coming soon)" exactly for the Bluetooth mode |
| `Modes.DisplayNamesDistinct` | app/src/main/java/com/scanner/app/data/ScanMode.kt:8-12 | the display name is defined for every mode and distinct modes have distinct names |
| `Modes.OnlyHidComingSoon` | app/src/main/java/com/scanner/app/data/ScanMode.kt:14-18 | only the Bluetooth mode's description marks it "(coming soon)" |
| `Settings.ScanModeOf` | app/src/main/java/com/scanner/app/data/AppSettings.kt:30-33 | a missing key reads as WiFi; a stored index in 0..2 reads as the mode with that ordinal; any other index reads as WiFi |
| `Settings.ServerPortOf` | app/src/main/java/com/scanner/app/data/AppSettings.kt:38-40 | the stored port, without range check, or 8080 when none is stored |
| `Settings.LastServerUrlOf` | app/src/main/java/com/scanner/app/data/AppSettings.kt:45-47 | the stored URL text, or "" when none is stored |
| `Settings.SetScanMode` | app/src/main/java/com/scanner/app/data/AppSettings.kt:52-56 | stores the mode's ordinal under the mode key; every other entry is unchanged |
| `Settings.SetServerPort` | app/src/main/java/com/scanner/app/data/AppSettings.kt:61-65 | stores any `Int` under the port key, with no range check; every other entry is unchanged |
| `Settings.SetLastServerUrl` | app/src/main/java/com/scanner/app/data/AppSettings.kt:70-74 | stores the text under the URL key; every other entry is unchanged |
| `Settings.Defaults` | app/src/main/java/com/scanner/app/data/AppSettings.kt:30-47 | an empty store reads as WiFi mode, port 8080 and URL "" |
| `Settings.SetThenRead` | app/src/main/java/com/scanner/app/data/AppSettings.kt:30-74 | each setter is read back by its own reader, with no range check, and leaves the other two readings unchanged |
| `Settings.OutOfRangeModeIsWifi` | app/src/main/java/com/scanner/app/data/AppSettings.kt:31-32 | a stored negative index or one of 3 or more reads as WiFi |
| `Analyzer.Pause` | app/src/main/java/com/scanner/app/scanner/BarcodeAnalyzer.kt:53-55 | the gate closes and the throttle memory (last value and time) is kept |
| `Analyzer.Resume` | app/src/main/java/com/scanner/app/scanner/BarcodeAnalyzer.kt:57-61 | returns the analyzer to its freshly constructed state: scanning, last value "", last time 0 |
| `Analyzer.Analyze` | app/src/main/java/com/scanner/app/scanner/BarcodeAnalyzer.kt:64-96 | a frame reaches the decoder exactly when scanning is on and the frame has an image |
| `Analyzer.HandleBarcodes` | app/src/main/java/com/scanner/app/scanner/BarcodeAnalyzer.kt:98-122 | nothing is emitted iff no entry is non-null and unthrottled, and then the state is unchanged; otherwise the emission is for the first such entry (raw value, mapped format, `now`) and the state records (value, now) |
| `Analyzer.OnDecodeSuccess` | app/src/main/java/com/scanner/app/scanner/BarcodeAnalyzer.kt:81-85 | the success listener re-checks the gate: while paused, nothing is emitted and the state is unchanged |
| `Analyzer.FirstAcceptedWins` | app/src/main/java/com/scanner/app/scanner/BarcodeAnalyzer.kt:101-120 | when entry `k` is the first the filter accepts, the batch's result is exactly the emission of entry `k` (its value, mapped format and `now`), with the state recording that value and time |
| `Analyzer.HandleBarcodesLoop` | app/src/main/java/com/scanner/app/scanner/BarcodeAnalyzer.kt:101-121 | the `for`/`continue`/`break` loop computes the same state and emission as the filter's definition |
| `Analyzer.PausedEmitsNothing` | app/src/main/java/com/scanner/app/scanner/BarcodeAnalyzer.kt:66-69 | while paused, no frame is decoded and no batch emits or changes the state |
| `Analyzer.SingleSighting` | app/src/main/java/com/scanner/app/scanner/BarcodeAnalyzer.kt:105-108 | one sighting of v is accepted iff scanning and (v differs from the last value or at least 300 ms have passed; exactly 300 is accepted) |
| `Analyzer.NullSkippedEmptyKept` | app/src/main/java/com/scanner/app/scanner/BarcodeAnalyzer.kt:102 | a null raw value is skipped; an empty string is emitted like any other value |
| `Analyzer.ResumeForgets` | app/src/main/java/com/scanner/app/scanner/BarcodeAnalyzer.kt:57-61 | after resume, a value is accepted at once unless it is "" and `now` < 300 |
| `Analyzer.PauseResumeReadmits` | app/src/main/java/com/scanner/app/scanner/BarcodeAnalyzer.kt:53-61 | after pause and resume, a non-empty value accepted before the pause is accepted again immediately |
| `Analyzer.RunRemembersLast` | app/src/main/java/com/scanner/app/scanner/BarcodeAnalyzer.kt:110-111 | over any run of frames, the throttle memory equals the value and time of the latest emission |
| `Analyzer.RunSpacesRepeats` | app/src/main/java/com/scanner/app/scanner/BarcodeAnalyzer.kt:99-111 | on a monotone clock, two consecutive emissions of the same value are at least 300 ms apart |
| `Analyzer.RunFirstEmission` | app/src/main/java/com/scanner/app/scanner/BarcodeAnalyzer.kt:105-108 | the first emission of a run, if it repeats the remembered value, comes at least 300 ms after the remembered time |
| `Analyzer.ThrottleScenario` | app/src/main/java/com/scanner/app/scanner/BarcodeAnalyzer.kt:99-111 | "X" seen at 0, 100 and 400 ms is emitted at 0 and 400 only |
| `Analyzer.ThrottleFromAcceptance` | app/src/main/java/com/scanner/app/scanner/BarcodeAnalyzer.kt:105-111 | "X" seen at 0, 200 and 400 ms is emitted twice: the window runs from the last acceptance |
| `Server.NewManager` | app/src/main/java/com/scanner/app/server/WebSocketServerManager.kt:13-19 | a new manager is not running and has no clients |
| `Server.IsRunning` | app/src/main/java/com/scanner/app/server/WebSocketServerManager.kt:22-23 | `isRunning` is true exactly when the handle is set; it is a predicate with no contract of its own, and `Start`, `Stop` and `FailedStartStillRunning` state when it holds |
| `Server.ConnectedClients` | app/src/main/java/com/scanner/app/server/WebSocketServerManager.kt:22-26 | 0 without a server; otherwise the size of its connection set |
| `Server.Start` | app/src/main/java/com/scanner/app/server/WebSocketServerManager.kt:31-47 | refused with no effect while running; for a port the socket address rejects, reports an error and leaves the handle null; otherwise sets the handle on the given port and returns true unless `server.start()` threw, in which case the error is reported and the handle stays set |
| `Server.Stop` | app/src/main/java/com/scanner/app/server/WebSocketServerManager.kt:52-61 | the handle ends null whether or not the inner stop threw |
| `Server.BroadcastBarcode` | app/src/main/java/com/scanner/app/server/WebSocketServerManager.kt:66-80 | with zero clients, nothing is sent and nothing is reported; otherwise exactly the text goes to the whole connection set, or the failure goes to `onError` and is swallowed |
| `Server.OnOpen` | app/src/main/java/com/scanner/app/server/WebSocketServerManager.kt:98-101 | a new connection joins the set and the owner is told the new size |
| `Server.OnClose` | app/src/main/java/com/scanner/app/server/WebSocketServerManager.kt:103-106 | a registered connection leaves the set and the owner is told the new size; an unknown one changes nothing |
| `Server.OnMessage` | app/src/main/java/com/scanner/app/server/WebSocketServerManager.kt:108-111 | a client message changes no state and reports nothing |
| `Server.OnServerError` | app/src/main/java/com/scanner/app/server/WebSocketServerManager.kt:113-116 | a transport error is forwarded to the owner and changes no state |
| `Server.StartWhileRunningRefused` | app/src/main/java/com/scanner/app/server/WebSocketServerManager.kt:33-36 | `start` while running returns false and changes nothing |
| `Server.StopThenStart` | app/src/main/java/com/scanner/app/server/WebSocketServerManager.kt:52-61 | `stop` is idempotent, and `start` on a valid port succeeds after it |
| `Server.PortIsStartArgument` | app/src/main/java/com/scanner/app/server/WebSocketServerManager.kt:14-38 | the server runs on `start`'s argument, whatever port the constructor got |
| `Server.FailedStartStillRunning` | app/src/main/java/com/scanner/app/server/WebSocketServerManager.kt:38-46 | if `server.start()` throws, start returns false, the error is reported, and `isRunning` reads true |
| `Server.CloseIdempotent` | app/src/main/java/com/scanner/app/server/WebSocketServerManager.kt:103-106 | a second close of the same connection changes and reports nothing |
| `Server.NoticesMatchCount` | app/src/main/java/com/scanner/app/server/WebSocketServerManager.kt:98-106 | every connect/disconnect notice carries the connection count at callback time |
| `Server.DeliverConnections` | app/src/main/java/com/scanner/app/server/WebSocketServerManager.kt:98-111 | one client event keeps the server running; an open registers its connection, a close drops it, and a message changes nothing; no other connection is affected |
| `Server.BroadcastAfterHistory` | app/src/main/java/com/scanner/app/server/WebSocketServerManager.kt:66-80 | after any history of opens and closes, a broadcast is a no-op iff no client remains; otherwise, when the send does not throw, it delivers the value unchanged to exactly the connections whose latest event was an open, or present at start and not since closed |
| `Server.RegistryConsistent` | app/src/main/java/com/scanner/app/server/WebSocketServerManager.kt:22-26 | after any history of opens, closes and messages, a connection is registered iff its latest open/close event was an open |
| `Server.BroadcastScenario` | app/src/main/java/com/scanner/app/server/WebSocketServerManager.kt:31-111 | start on 9000; broadcast with no clients is a no-op; one client connects (count 1), receives exactly "ABC123", disconnects (count 0); after stop, start on 9000 succeeds |
| `Text.NatToString` | app/src/main/java/com/scanner/app/utils/NetworkUtils.kt:52-58 | `%d` of a non-negative number is a non-empty digit string without a leading zero |
| `Text.IntToString` | app/src/main/java/com/scanner/app/utils/NetworkUtils.kt:70 | `$port` begins with '-' exactly for a negative port |
| `Text.ParseIntToString` | app/src/main/java/com/scanner/app/utils/NetworkUtils.kt:70 | the printed port reads back as the same integer |
| `Network.Octet` | app/src/main/java/com/scanner/app/utils/NetworkUtils.kt:54-57 | `ipInt shr 8k and 0xff` lies in 0..255, also for negative `ipInt` |
| `Network.DottedQuad` | app/src/main/java/com/scanner/app/utils/NetworkUtils.kt:52-58 | `"%d.%d.%d.%d"` splits at '.' into exactly the four decimal fields, and contains no ':' |
| `Network.WifiIpAddress` | app/src/main/java/com/scanner/app/utils/NetworkUtils.kt:42-62 | no address iff there is no WiFi information or the integer is 0 |
| `Network.OctetsRoundTrip` | app/src/main/java/com/scanner/app/utils/NetworkUtils.kt:54-57 | the sum of octet_k times 256^k equals `ipInt` mod 2^32 |
| `Network.WifiAddressParses` | app/src/main/java/com/scanner/app/utils/NetworkUtils.kt:52-58 | the dotted-quad text splits into four decimal fields that are the octets, lowest byte first |
| `Network.DottedQuadParses` | app/src/main/java/com/scanner/app/utils/NetworkUtils.kt:52-58 | `"%d.%d.%d.%d"` of four non-negative numbers parses back to the same four numbers in order |
| `Network.WifiAddressHasNoColon` | app/src/main/java/com/scanner/app/utils/NetworkUtils.kt:52-58 | the WiFi address text contains no ':' |
| `Network.FirstUsable` | app/src/main/java/com/scanner/app/utils/NetworkUtils.kt:28-29 | absent iff no address is non-loopback IPv4; otherwise the host address of the first such address |
| `Network.ScanInterfaces` | app/src/main/java/com/scanner/app/utils/NetworkUtils.kt:24-33 | the nested loop over interfaces and addresses returns the first non-loopback IPv4 host address in enumeration order, or null |
| `Network.LocalIpAddress` | app/src/main/java/com/scanner/app/utils/NetworkUtils.kt:17-37 | a WiFi address is preferred; otherwise the interface scan; null when enumeration fails |
| `Network.WebSocketUrl` | app/src/main/java/com/scanner/app/utils/NetworkUtils.kt:67-74 | "Not connected to WiFi" without an address; otherwise a `ws://` URL that, for a colon-free host, parses back to that host and port |
| `Network.WebSocketUrlParses` | app/src/main/java/com/scanner/app/utils/NetworkUtils.kt:67-73 | with an address, the text parses as `ws://` + that host + ':' + the port; without one it is "Not connected to WiFi", which does not parse as a URL |
| `Network.HostUrlParses` | app/src/main/java/com/scanner/app/utils/NetworkUtils.kt:70 | `"ws://$ip:$port"` for any colon-free host reads back as that host and port |
| `ScreenCore.PauseScanning` | app/src/main/java/com/scanner/app/scanner/CameraManager.kt:113-115 | `barcodeAnalyzer?.pause()`: pauses the analyzer if there is one, and does nothing otherwise |
| `ScreenCore.ResumeScanning` | app/src/main/java/com/scanner/app/scanner/CameraManager.kt:120-122 | `barcodeAnalyzer?.resume()`: resets an existing analyzer to the fresh state, and does nothing otherwise |
| `ScreenCore.Present` | app/src/main/java/com/scanner/app/ui/ScannerScreenNew.kt:137-155 | a detection stores and shows the result and pauses the analyzer, if there is one |
| `ScreenCore.Dismiss` | app/src/main/java/com/scanner/app/ui/ScannerScreenNew.kt:250-254 | dismiss hides and clears the result and resets the analyzer to scanning with empty memory |
| `ScreenCore.Decode` | app/src/main/java/com/scanner/app/scanner/BarcodeAnalyzer.kt:64-85 | a frame goes through the camera manager's analyzer: without an analyzer, or while a card is shown (analyzer paused), it changes nothing and detects nothing; a detection is stamped with `now` and only happens while scanning; with an analyzer, the detection and the analyzer's next state are exactly those of its decode step |
| `ScreenCore.StopCamera` | app/src/main/java/com/scanner/app/scanner/CameraManager.kt:127-138 | after `stopCamera` there is no analyzer, so later `pauseScanning`/`resumeScanning` calls are no-ops; the shown result is untouched |
| `ScreenCore.OpenUrl` | app/src/main/java/com/scanner/app/ui/ScannerScreen.kt:249-254 | the browser is asked to open the value iff it starts with http:// or https:// |
| `ScreenCore.CountAfter` | app/src/main/java/com/scanner/app/ui/ScannerScreen.kt:74-83 | when the last notice is a connect or disconnect, the displayed count is its count; notices that are all errors leave it unchanged |
| `ScreenCore.ClientOpened` | app/src/main/java/com/scanner/app/ui/ScannerScreen.kt:74-80 | a connect is handed to the current manager, which adds the connection; when it is new, the displayed count becomes the registry's new size, one more than before; the count stays in step with the registry |
| `ScreenCore.ClientClosed` | app/src/main/java/com/scanner/app/ui/ScannerScreen.kt:81-83 | a disconnect is handed to the current manager, which removes the connection; when it was registered, the displayed count becomes the registry's new size, one less than before; the count stays in step with the registry |
| `ScreenCore.BroadcastVia` | app/src/main/java/com/scanner/app/ui/ScannerScreen.kt:121 | `wsServer?.broadcastBarcode` does nothing without a manager, otherwise broadcasts |
| `ScreenCore.StopServer` | app/src/main/java/com/scanner/app/ui/ScannerScreen.kt:271 | `wsServer?.stop()` leaves any manager not running |
| `ScreenCore.ReleasePrevious` | app/src/main/java/com/scanner/app/ui/ScannerScreenNew.kt:80-81 | the previous manager itself, and no other, is stopped and reported before it is replaced; with no previous manager nothing happens |
| `ScannerScreen.Launch` | app/src/main/java/com/scanner/app/ui/ScannerScreen.kt:68-95 | stops any previous manager, builds a new one and starts it on 8080; the URL is set only when start returned true, and is otherwise kept |
| `ScannerScreen.OnDetected` | app/src/main/java/com/scanner/app/ui/ScannerScreen.kt:116-124 | stores and shows the result, hides the overlay, broadcasts the raw value, pauses scanning |
| `ScannerScreen.OnFrame` | app/src/main/java/com/scanner/app/ui/ScannerScreen.kt:112-124 | keeps the screen invariant; while a result is shown, a frame changes nothing; otherwise the analyzer advances, and a detection goes to the detection callback, with no other effect |
| `ScannerScreen.OnDismiss` | app/src/main/java/com/scanner/app/ui/ScannerScreen.kt:237-242 | the result is hidden and cleared, the overlay returns, scanning resumes |
| `ScannerScreen.OnOpenUrl` | app/src/main/java/com/scanner/app/ui/ScannerScreen.kt:575-576 | the offered and tapped "Open URL" opens exactly the shown value, and only for http(s) |
| `ScannerScreen.OnDispose` | app/src/main/java/com/scanner/app/ui/ScannerScreen.kt:268-273 | dispose releases the analyzer and leaves the server not running |
| `ScannerScreen.OnClientOpened` | app/src/main/java/com/scanner/app/ui/ScannerScreen.kt:74-80 | a connect keeps the screen invariant and updates the manager and the displayed count as `ClientOpened` states |
| `ScannerScreen.OnClientClosed` | app/src/main/java/com/scanner/app/ui/ScannerScreen.kt:81-83 | a disconnect keeps the screen invariant and updates the manager and the displayed count as `ClientClosed` states |
| `ScannerScreen.InvariantHolds` | app/src/main/java/com/scanner/app/ui/ScannerScreen.kt:116-242 | over any event sequence, a card is shown iff a result is stored, and the analyzer is paused while it is shown |
| `ScannerScreen.StatusAfterLaunch` | app/src/main/java/com/scanner/app/ui/ScannerScreen.kt:92-94 | after the first launch, the status chip shows iff `start` returned true, with the URL of `getWebSocketUrl`; without an address that URL is "Not connected to WiFi" |
| `ScannerScreen.ConnectThenDisconnect` | app/src/main/java/com/scanner/app/ui/ScannerScreen.kt:72-94 | after a successful launch the count shows 0; one client connecting makes it 1 and registers the client; that client leaving makes it 0 again |
| `ScannerScreen.NoDetectionWhileShown` | app/src/main/java/com/scanner/app/ui/ScannerScreen.kt:123-124 | while a result is shown, no frame produces another detection |
| `ScannerScreen.DetectionReachesClient` | app/src/main/java/com/scanner/app/ui/ScannerScreen.kt:116-124 | for any frame decoded while scanning, the first entry the filter accepts is shown and scanning pauses on it; with clients and no send failure, exactly its value goes to every connected client; with no clients the broadcast is a no-op, and with no manager nothing is sent |
| `ScannerScreenNew.ModeEffect` | app/src/main/java/com/scanner/app/ui/ScannerScreenNew.kt:78-113 | in WiFi mode: stops the old manager, starts a new one on the collected port, and sets and persists the URL only when start returned true; otherwise stops and clears the manager |
| `ScannerScreenNew.Launch` | app/src/main/java/com/scanner/app/ui/ScannerScreenNew.kt:66-83 | first composition runs the effect for the initial WiFi/8080 values: when `start` does not throw, the manager runs on 8080 and the URL of `getWebSocketUrl` is shown and persisted; when it throws, the URL stays "" and the store is unchanged |
| `ScannerScreenNew.SettingsEmitted` | app/src/main/java/com/scanner/app/ui/ScannerScreenNew.kt:66-78 | the collected mode and port follow the store; the effect reruns only when one of them changed, and then it is exactly the mode effect for the new mode and port |
| `ScannerScreenNew.SelectMode` | app/src/main/java/com/scanner/app/ui/ScannerScreenNew.kt:221-227 | persists the mode (the store then reads it back, with the port unchanged) and closes the selector; switching away from WiFi leaves no manager, and a change stops the previous one; switching to WiFi creates a manager, which runs on the stored port with its URL shown when that port is valid and the start does not throw |
| `ScannerScreenNew.OpenModeSelector` | app/src/main/java/com/scanner/app/ui/ScannerScreenNew.kt:201-215 | the selector hides the scanning overlay and changes nothing else |
| `ScannerScreenNew.CloseModeSelector` | app/src/main/java/com/scanner/app/ui/ScannerScreenNew.kt:228 | dismissing the selector only closes it: result, server, mode, port and store are unchanged |
| `ScannerScreenNew.Route` | app/src/main/java/com/scanner/app/ui/ScannerScreenNew.kt:141-152 | WiFi broadcasts the value, Copy Only copies it, Bluetooth only shows the coming-soon notice |
| `ScannerScreenNew.OnDetected` | app/src/main/java/com/scanner/app/ui/ScannerScreenNew.kt:136-155 | stores and shows the result, hides the overlay, routes it by the current mode, pauses scanning |
| `ScannerScreenNew.OnFrame` | app/src/main/java/com/scanner/app/ui/ScannerScreenNew.kt:132-155 | keeps the screen invariant; while a result is shown, a frame changes nothing; otherwise the analyzer advances, and a detection goes to the detection callback, with no other effect |
| `ScannerScreenNew.OnDismiss` | app/src/main/java/com/scanner/app/ui/ScannerScreenNew.kt:250-254 | the result is hidden and cleared, scanning resumes, and the overlay returns unless the mode selector is open |
| `ScannerScreenNew.OnOpenUrl` | app/src/main/java/com/scanner/app/ui/ScannerScreenNew.kt:261-266 | the offered and tapped "Open URL" opens exactly the shown value, and only for an http:// or https:// value |
| `ScannerScreenNew.OnDispose` | app/src/main/java/com/scanner/app/ui/ScannerScreenNew.kt:116-121 | dispose releases the analyzer and leaves the server not running |
| `ScannerScreenNew.OnClientOpened` | app/src/main/java/com/scanner/app/ui/ScannerScreenNew.kt:85-91 | a connect keeps the invariant and updates the manager and the displayed count as `ClientOpened` states |
| `ScannerScreenNew.OnClientClosed` | app/src/main/java/com/scanner/app/ui/ScannerScreenNew.kt:92-94 | a disconnect keeps the invariant and updates the manager and the displayed count as `ClientClosed` states |
| `ScannerScreenNew.InvariantHolds` | app/src/main/java/com/scanner/app/ui/ScannerScreenNew.kt:78-254 | over any event sequence, a card is shown iff a result is stored, the analyzer is paused while it is shown, and no manager exists outside WiFi mode |
| `ScannerScreenNew.PersistingUrlDoesNotRestart` | app/src/main/java/com/scanner/app/ui/ScannerScreenNew.kt:103-107 | saving the URL changes the store but not the collected mode or port, so the server is not restarted |
| `ScannerScreenNew.StatusFollowsMode` | app/src/main/java/com/scanner/app/ui/ScannerScreenNew.kt:340 | server status is hidden outside WiFi mode, and shown after a successful WiFi start |
| `ScannerScreenNew.FailedRestartKeepsOldUrl` | app/src/main/java/com/scanner/app/ui/ScannerScreenNew.kt:103-108 | if a restart fails on a port the socket address rejects, no server runs but the old URL stays displayed |
| `ScannerScreenNew.DetectionRouting` | app/src/main/java/com/scanner/app/ui/ScannerScreenNew.kt:136-155 | for any frame decoded while scanning, the first entry the filter accepts is shown and scanning pauses on it; Copy Only copies its value, Bluetooth shows the notice, and WiFi with clients and no send failure sends exactly the value to every connected client |

## Left out

- Camera plumbing (`CameraManager.kt`): provider binding, executor, resolution and torch. The analyzer is assumed to be reached through `pauseScanning`/`resumeScanning`, which are no-ops after `stopCamera`.
- ML Kit's `process`: its asynchronous result is the input batch, and its failure listener only forwards the exception. Closing the image proxy is resource handling.
- The `Barcode.FORMAT_*` values are ML Kit's published constants, which are not defined in the app's code. The proofs use only the fact that they are distinct.
- java-websocket internals: socket binding, handshakes, threads and frames. Two library behaviours are assumed. A connection is added before `onOpen` and removed before `onClose`. Each callback fires only if the set changed.
- The disconnect callbacks that `stop` triggers while it closes live connections are environment events. For that reason the screens' displayed client count is not an invariant across a restart.
- Concurrency: the analyzer thread, ML Kit callbacks and server threads. Each callback is one atomic transition.
- DataStore `Flow`s and `suspend` edits: each edit applies at once, and an emission is an explicit event.
- `ScannerScreenNew.SelectMode`: the edit and the store's resulting emission are applied in one step. In the app, `setScanMode` runs in a launched coroutine, and `currentMode` changes only after the store emits and the screen recomposes. A detection in that window is still routed by the old mode, and the model does not represent that window.
- Network queries and `String.format`: the WiFi integer, the interface list and the local IP are inputs. `%d` is taken to print ASCII digits; locale-specific digits are not modelled.
- `Analyzer.HandleBarcodes`: times are unbounded integers, so the 64-bit `Long` overflow of `now - lastScanTime` is not modelled. Real clock values never reach it.
- `ScannerScreen.Launch`: the Toast shown by the connect and error callbacks is not modelled. Only the count update is.
- `ScannerScreenNew.ModeEffect`: the Toast shown by the connect and error callbacks (ScannerScreenNew.kt:87-99) is not modelled. Only the count update is.
- Presentation: all layout, animation, colours, tone, vibration, share, permission prompts and `MainActivity`. Clipboard, browser, Bluetooth-notice and broadcast calls appear only as labelled actions.
- `BarcodeAnalyzer.release` and the `ScanResult` default timestamp: resource handling and a clock default that the analyzer never uses.

=== FILE: analyzer.dfy ===
/**
 * The duplicate/throttle filter and pause gate of `scanner/BarcodeAnalyzer.kt`.
 * ML Kit's asynchronous `process` is replaced by its output: a batch of
 * decoded barcodes, each with a possibly-null raw value and a format code.
 * The clock read in `handleBarcodes` is the parameter `now` (milliseconds).
 */
module Analyzer {
  import opened Wrappers
  import opened ScanData

  const ScanThrottleMs: int := 300

  datatype State = State(isScanning: bool, lastScannedValue: string, lastScanTime: int)

  /** A freshly constructed analyzer. */
  const Initial: State := State(true, "", 0)

  /** One entry of ML Kit's result list: `barcode.rawValue` may be null. */
  datatype Barcode = Barcode(rawValue: Option<string>, format: int)

  /** What one call of the batch handler produced. */
  datatype Step = Step(state: State, emitted: Option<ScanResult>)

  /** What `analyze` does with one camera frame. */
  datatype FrameDecision = Dropped | SubmittedToDecoder

  /** `pause`: switches the gate off and keeps the throttle memory. */
  function Pause(s: State): (t: State)
    ensures !t.isScanning
    ensures t.lastScannedValue == s.lastScannedValue && t.lastScanTime == s.lastScanTime
  {
    s.(isScanning := false)
  }

  /** `resume`: switches the gate on and forgets the last accepted value. */
  function Resume(s: State): (t: State)
    ensures t == Initial
  {
    State(true, "", 0)
  }

  /** The same value as the last accepted one, less than 300 ms after it. */
  predicate Throttled(s: State, value: string, now: int) {
    value == s.lastScannedValue && now - s.lastScanTime < ScanThrottleMs
  }

  /** The loop in `handleBarcodes` stops at an entry exactly when this holds. */
  predicate Accepts(s: State, b: Barcode, now: int) {
    b.rawValue.Some? && !Throttled(s, b.rawValue.value, now)
  }

  /** `analyze`: a frame reaches the decoder only while scanning and when it carries an image. */
  function Analyze(s: State, hasImage: bool): (d: FrameDecision)
    ensures d == SubmittedToDecoder <==> s.isScanning && hasImage
  {
    if !s.isScanning then Dropped
    else if hasImage then SubmittedToDecoder
    else Dropped
  }

  /**
   * `handleBarcodes`: emits a result for the first entry that has a raw value
   * and is not throttled, and ignores the rest of the batch. Entries skipped
   * before it do not touch the state.
   */
  function HandleBarcodes(s: State, batch: seq<Barcode>, now: int): (r: Step)
    ensures r.emitted.None? <==> forall i | 0 <= i < |batch| :: !Accepts(s, batch[i], now)
    ensures r.emitted.None? ==> r.state == s
    ensures r.emitted.Some? ==> r.state == State(s.isScanning, r.emitted.value.rawValue, now) && r.emitted.value.timestamp == now
    ensures r.emitted.Some? ==>
      exists k | 0 <= k < |batch| ::
        && Accepts(s, batch[k], now)
        && (forall j | 0 <= j < k :: !Accepts(s, batch[j], now))
        && r.emitted.value == ScanResult(batch[k].rawValue.value, FromMLKitFormat(batch[k].format), now)
        && r.state == State(s.isScanning, batch[k].rawValue.value, now)
    decreases |batch|
  {
    if |batch| == 0 then Step(s, None)
    else if Accepts(s, batch[0], now) then
      var value := batch[0].rawValue.value;
      Step(s.(lastScannedValue := value, lastScanTime := now),
           Some(ScanResult(value, FromMLKitFormat(batch[0].format), now)))
    else
      var r := HandleBarcodes(s, batch[1..], now);
      assert forall i | 1 <= i < |batch| :: batch[i] == batch[1..][i - 1];
      r
  }

  /** The success listener re-checks the gate before handling the batch. */
  function OnDecodeSuccess(s: State, batch: seq<Barcode>, now: int): (r: Step)
    ensures !s.isScanning ==> r == Step(s, None)
    ensures s.isScanning ==> r == HandleBarcodes(s, batch, now)
  {
    if s.isScanning then HandleBarcodes(s, batch, now) else Step(s, None)
  }

  /**
   * The loop of `handleBarcodes` as written, with `continue` for a null or
   * throttled entry and `break` after the first emission.
   */
  method HandleBarcodesLoop(s: State, batch: seq<Barcode>, now: int) returns (t: State, emitted: Option<ScanResult>)
    ensures Step(t, emitted) == HandleBarcodes(s, batch, now)
  {
    t := s;
    emitted := None;
    var i := 0;
    while i < |batch|
      invariant 0 <= i <= |batch|
      invariant t == s && emitted.None?
      invariant HandleBarcodes(s, batch, now) == HandleBarcodes(s, batch[i..], now)
    {
      var b := batch[i];
      if b.rawValue.None? {
        i := i + 1;
        continue;
      }
      var rawValue := b.rawValue.value;
      if rawValue == t.lastScannedValue && now - t.lastScanTime < ScanThrottleMs {
        i := i + 1;
        continue;
      }
      t := t.(lastScannedValue := rawValue, lastScanTime := now);
      emitted := Some(ScanResult(rawValue, FromMLKitFormat(b.format), now));
      break;
    }
  }

  // ---------------------------------------------------------------------------
  // Properties of the filter.

  /**
   * The entry the loop stops at determines the step: if entry `k` is the
   * first acceptable one, its value is emitted and remembered with `now`.
   */
  lemma {:induction false} FirstAcceptedWins(s: State, batch: seq<Barcode>, now: int, k: nat)
    requires k < |batch| && Accepts(s, batch[k], now)
    requires forall j | 0 <= j < k :: !Accepts(s, batch[j], now)
    ensures var v := batch[k].rawValue.value;
      HandleBarcodes(s, batch, now)
        == Step(State(s.isScanning, v, now), Some(ScanResult(v, FromMLKitFormat(batch[k].format), now)))
    decreases k
  {
    if k > 0 {
      assert !Accepts(s, batch[0], now);
      assert batch[1..][k - 1] == batch[k];
      forall j | 0 <= j < k - 1 ensures !Accepts(s, batch[1..][j], now) {
        assert batch[1..][j] == batch[j + 1];
      }
      FirstAcceptedWins(s, batch[1..], now, k - 1);
    }
  }

  /** While paused, no batch produces a result and the state does not move. */
  lemma PausedEmitsNothing(s: State, batch: seq<Barcode>, now: int)
    requires !s.isScanning
    ensures OnDecodeSuccess(s, batch, now) == Step(s, None)
    ensures Analyze(s, true) == Dropped
  {
  }

  /** A single sighting of `v` is accepted exactly when scanning and not within 300 ms of accepting `v`. */
  lemma SingleSighting(s: State, v: string, format: int, now: int)
    ensures OnDecodeSuccess(s, [Barcode(Some(v), format)], now).emitted.Some?
        <==> s.isScanning && (v != s.lastScannedValue || now - s.lastScanTime >= ScanThrottleMs)
  {
  }

  /** Null entries are skipped; an empty string is a value like any other. */
  lemma NullSkippedEmptyKept(s: State, format: int, now: int)
    requires s.isScanning && s.lastScannedValue != ""
    ensures OnDecodeSuccess(s, [Barcode(None, format)], now) == Step(s, None)
    ensures OnDecodeSuccess(s, [Barcode(Some(""), format)], now).emitted == Some(ScanResult("", FromMLKitFormat(format), now))
  {
  }

  /**
   * After `resume`, any value is accepted at once, except the empty string
   * during the first 300 ms of the clock, because the reset memory is ("", 0).
   */
  lemma ResumeForgets(s: State, v: string, format: int, now: int)
    ensures OnDecodeSuccess(Resume(s), [Barcode(Some(v), format)], now).emitted.Some?
        <==> v != "" || now >= ScanThrottleMs
  {
  }

  /** `pause` then `resume` re-admits the value accepted just before the pause. */
  lemma PauseResumeReadmits(s: State, v: string, format: int, now: int)
    requires v != ""
    ensures OnDecodeSuccess(Resume(Pause(s)), [Barcode(Some(v), format)], now).emitted
         == Some(ScanResult(v, FromMLKitFormat(format), now))
  {
  }

  // ---------------------------------------------------------------------------
  // Runs over many decoded frames.

  datatype Frame = Frame(batch: seq<Barcode>, now: int)

  /** Feeds the frames in order, collecting every emitted result. */
  function Run(s: State, frames: seq<Frame>): (State, seq<ScanResult>)
    decreases |frames|
  {
    if |frames| == 0 then (s, [])
    else
      var r := OnDecodeSuccess(s, frames[0].batch, frames[0].now);
      var tail := Run(r.state, frames[1..]);
      (tail.0, (if r.emitted.Some? then [r.emitted.value] else []) + tail.1)
  }

  /** The throttle memory always holds the most recent emission. */
  lemma {:induction false} RunRemembersLast(s: State, frames: seq<Frame>)
    ensures var (t, out) := Run(s, frames);
      && t.isScanning == s.isScanning
      && (|out| == 0 ==> t == s)
      && (|out| > 0 ==> t.lastScannedValue == out[|out| - 1].rawValue && t.lastScanTime == out[|out| - 1].timestamp)
    decreases |frames|
  {
    if |frames| > 0 {
      RunRemembersLast(OnDecodeSuccess(s, frames[0].batch, frames[0].now).state, frames[1..]);
    }
  }

  /** No frame is earlier than `t`. */
  predicate NotBefore(t: int, frames: seq<Frame>) {
    forall k | 0 <= k < |frames| :: t <= frames[k].now
  }

  /** The frames arrive with a clock that does not run backwards. */
  predicate Ordered(frames: seq<Frame>) {
    forall j, k | 0 <= j < k < |frames| :: frames[j].now <= frames[k].now
  }

  lemma NotBeforeTail(t: int, frames: seq<Frame>)
    requires 0 < |frames| && NotBefore(t, frames)
    ensures NotBefore(t, frames[1..])
  {
    forall k | 0 <= k < |frames[1..]| ensures t <= frames[1..][k].now {
      assert frames[1..][k] == frames[k + 1];
    }
  }

  lemma OrderedTail(frames: seq<Frame>)
    requires 0 < |frames| && Ordered(frames)
    ensures Ordered(frames[1..]) && NotBefore(frames[0].now, frames[1..])
  {
    forall k | 0 <= k < |frames[1..]| ensures frames[0].now <= frames[1..][k].now {
      assert frames[1..][k] == frames[k + 1];
    }
    forall j, k | 0 <= j < k < |frames[1..]| ensures frames[1..][j].now <= frames[1..][k].now {
      assert frames[1..][j] == frames[j + 1] && frames[1..][k] == frames[k + 1];
    }
  }

  /** The output of a run: the first frame's emission, then the rest of the run's. */
  lemma RunOutput(s: State, frames: seq<Frame>)
    requires 0 < |frames|
    ensures var r := OnDecodeSuccess(s, frames[0].batch, frames[0].now);
      Run(s, frames).1 == (if r.emitted.Some? then [r.emitted.value] else []) + Run(r.state, frames[1..]).1
  {
  }

  /**
   * Two consecutive emissions of the same value are at least 300 ms apart,
   * provided the clock does not run backwards.
   */
  lemma {:induction false} RunSpacesRepeats(s: State, frames: seq<Frame>, i: nat)
    requires NotBefore(s.lastScanTime, frames) && Ordered(frames)
    requires i + 1 < |Run(s, frames).1|
    requires Run(s, frames).1[i].rawValue == Run(s, frames).1[i + 1].rawValue
    ensures Run(s, frames).1[i + 1].timestamp - Run(s, frames).1[i].timestamp >= ScanThrottleMs
    decreases |frames|
  {
    var r := OnDecodeSuccess(s, frames[0].batch, frames[0].now);
    var rest := Run(r.state, frames[1..]).1;
    RunOutput(s, frames);
    OrderedTail(frames);
    if r.emitted.None? {
      NotBeforeTail(s.lastScanTime, frames);
      RunSpacesRepeats(s, frames[1..], i);
    } else if i == 0 {
      // The second emission is the first one of the rest of the run.
      RunFirstEmission(r.state, frames[1..]);
    } else {
      ShiftPair([r.emitted.value], rest, i);
      RunSpacesRepeats(r.state, frames[1..], i - 1);
    }
  }

  /** Indexing past a one-element prefix. */
  lemma ShiftPair<T>(head: seq<T>, rest: seq<T>, i: nat)
    requires |head| == 1 && 0 < i && i + 1 < |head + rest|
    ensures (head + rest)[i] == rest[i - 1] && (head + rest)[i + 1] == rest[i]
  {
  }

  /**
   * The first emission of a run whose frames are not earlier than the last
   * acceptance: a repeat of the remembered value is at least 300 ms after it.
   */
  lemma {:induction false} RunFirstEmission(s: State, frames: seq<Frame>)
    requires NotBefore(s.lastScanTime, frames)
    requires 0 < |Run(s, frames).1|
    ensures var e := Run(s, frames).1[0];
      e.rawValue == s.lastScannedValue ==> e.timestamp - s.lastScanTime >= ScanThrottleMs
    decreases |frames|
  {
    var r := OnDecodeSuccess(s, frames[0].batch, frames[0].now);
    if r.emitted.None? {
      NotBeforeTail(s.lastScanTime, frames);
      RunFirstEmission(s, frames[1..]);
    }
  }

  /** One frame followed by more frames: the first step, then the run of the rest. */
  lemma RunCons(s: State, f: Frame, fs: seq<Frame>)
    ensures var r := OnDecodeSuccess(s, f.batch, f.now);
      Run(s, [f] + fs) == (Run(r.state, fs).0, (if r.emitted.Some? then [r.emitted.value] else []) + Run(r.state, fs).1)
  {
    assert ([f] + fs)[0] == f && ([f] + fs)[1..] == fs;
  }

  /** The three-sighting scenario: "X" at 0, 100 and 400 ms is accepted at 0 and 400 only. */
  lemma ThrottleScenario()
    ensures Run(Initial, [Frame([Barcode(Some("X"), FormatQrCode)], 0),
                          Frame([Barcode(Some("X"), FormatQrCode)], 100),
                          Frame([Barcode(Some("X"), FormatQrCode)], 400)]).1
         == [ScanResult("X", QrCode, 0), ScanResult("X", QrCode, 400)]
  {
    ThreeSightings(100);
  }

  /**
   * The window is measured from the last acceptance, not from the last
   * sighting: sightings 200 ms apart at 0, 200 and 400 are accepted twice.
   */
  lemma ThrottleFromAcceptance()
    ensures |Run(Initial, [Frame([Barcode(Some("X"), FormatQrCode)], 0),
                           Frame([Barcode(Some("X"), FormatQrCode)], 200),
                           Frame([Barcode(Some("X"), FormatQrCode)], 400)]).1| == 2
  {
    ThreeSightings(200);
  }

  lemma ThreeSightings(middle: int)
    requires 0 <= middle < ScanThrottleMs
    ensures Run(Initial, [Frame([Barcode(Some("X"), FormatQrCode)], 0),
                          Frame([Barcode(Some("X"), FormatQrCode)], middle),
                          Frame([Barcode(Some("X"), FormatQrCode)], 400)]).1
         == [ScanResult("X", QrCode, 0), ScanResult("X", QrCode, 400)]
  {
    var b := [Barcode(Some("X"), FormatQrCode)];
    var s1 := State(true, "X", 0);
    var s3 := State(true, "X", 400);
    var e0 := ScanResult("X", QrCode, 0);
    var e3 := ScanResult("X", QrCode, 400);
    assert OnDecodeSuccess(Initial, b, 0) == Step(s1, Some(e0));
    assert OnDecodeSuccess(s1, b, middle) == Step(s1, None);
    assert OnDecodeSuccess(s1, b, 400) == Step(s3, Some(e3));
    RunCons(s1, Frame(b, 400), []);
    assert [Frame(b, 400)] + [] == [Frame(b, 400)];
    assert Run(s3, []) == (s3, []);
    assert Run(s1, [Frame(b, 400)]).1 == [e3];
    RunCons(s1, Frame(b, middle), [Frame(b, 400)]);
    assert Run(s1, [Frame(b, middle), Frame(b, 400)]).1 == [e3];
    RunCons(Initial, Frame(b, 0), [Frame(b, middle), Frame(b, 400)]);
    assert [Frame(b, 0)] + [Frame(b, middle), Frame(b, 400)] == [Frame(b, 0), Frame(b, middle), Frame(b, 400)];
  }
}

=== FILE: ints.dfy ===
/** Fixed-width JVM integers and the Kotlin bit operators the model needs. */
module Ints {

  const IntMin: int := -0x8000_0000
  const IntMax: int := 0x7fff_ffff
  const TwoTo32: int := 0x1_0000_0000

  /** Kotlin `Int`: a signed 32-bit two's-complement value. */
  type Int32 = x: int | IntMin <= x <= IntMax

  function Pow2(n: nat): (p: nat)
    ensures p >= 1
  {
    if n == 0 then 1 else 2 * Pow2(n - 1)
  }

  /**
   * Kotlin `x shr n` for `0 <= n < 32`: the arithmetic shift, which is
   * division by 2^n rounded towards negative infinity. Dafny's `/` with a
   * positive divisor rounds the same way, also for negative `x`.
   */
  function Shr(x: Int32, n: nat): int
    requires n < 32
  {
    x / Pow2(n)
  }

  /** Kotlin `y and 0xff`: the low eight bits of the two's-complement value. */
  function LowByte(y: int): (b: int)
    ensures 0 <= b < 256
  {
    y % 256
  }
}

=== FILE: modes.dfy ===
/** The three scan modes (`data/ScanMode.kt`) with their labels. */
module Modes {
  import opened Wrappers
  import Text

  /** Declaration order fixes the ordinals: 0, 1, 2. */
  datatype ScanMode = WifiWebSocket | BluetoothHid | CopyOnly

  /** `ScanMode.values()`. */
  const Values: seq<ScanMode> := [WifiWebSocket, BluetoothHid, CopyOnly]

  function Ordinal(m: ScanMode): (i: nat)
    ensures i < |Values| && Values[i] == m
  {
    match m
    case WifiWebSocket => 0
    case BluetoothHid => 1
    case CopyOnly => 2
  }

  /** `ScanMode.values().getOrNull(i)`. */
  function GetOrNull(i: int): (r: Option<ScanMode>)
    ensures r.Some? <==> 0 <= i < |Values|
    ensures r.Some? ==> Ordinal(r.value) == i
  {
    if 0 <= i < |Values| then Some(Values[i]) else None
  }

  lemma OrdinalRoundTrip(m: ScanMode)
    ensures GetOrNull(Ordinal(m)) == Some(m)
    ensures forall n: ScanMode :: Ordinal(n) == Ordinal(m) ==> n == m
  {
  }

  /** `getDisplayName`: the label of the mode chip and of the selector rows. */
  function DisplayName(m: ScanMode): (name: string)
    ensures m == WifiWebSocket ==> name == "WiFi Scanner"
    ensures m == BluetoothHid ==> name == "Bluetooth Keyboard"
    ensures m == CopyOnly ==> name == "Copy Only"
  {
    match m
    case WifiWebSocket => "WiFi Scanner"
    case BluetoothHid => "Bluetooth Keyboard"
    case CopyOnly => "Copy Only"
  }

  /** `getDescription`: the selector's subtitle; only the Bluetooth mode is marked as unfinished. */
  function Description(m: ScanMode): (text: string)
    ensures 0 < |text|
    ensures Text.EndsWith(text, "(coming soon)") <==> m == BluetoothHid
  {
    match m
    case WifiWebSocket => "Broadcast scans to browsers via WiFi"
    case BluetoothHid => "Act as Bluetooth keyboard (coming soon)"
    case CopyOnly => "Copy barcode to clipboard"
  }

  /** Distinct modes are shown under distinct names. */
  lemma DisplayNamesDistinct(m: ScanMode, n: ScanMode)
    ensures DisplayName(m) == DisplayName(n) <==> m == n
  {
  }

  /** Only the Bluetooth mode is labelled as not yet available. */
  lemma OnlyHidComingSoon(m: ScanMode)
    ensures Text.EndsWith(Description(m), "(coming soon)") <==> m == BluetoothHid
  {
  }
}

=== FILE: network.dfy ===
/**
 * Address selection and URL building of `utils/NetworkUtils.kt`. The WiFi
 * manager's `ipAddress` and the enumerated network interfaces are inputs;
 * `None` stands for a null result or a query that threw (both end in null).
 */
module Network {
  import opened Wrappers
  import opened Ints
  import opened Text

  /** Octet `k` of the WiFi address: Kotlin's `ipInt shr (8 * k) and 0xff`. */
  function Octet(ipInt: Int32, k: nat): (o: nat)
    requires k < 4
    ensures o < 256
  {
    LowByte(Shr(ipInt, 8 * k))
  }

  /**
   * `String.format("%d.%d.%d.%d", ...)` for four octets: four digit fields
   * that splitting at '.' recovers, and no ':' anywhere.
   */
  function DottedQuad(a: nat, b: nat, c: nat, d: nat): (s: string)
    ensures Split(s, '.') == [NatToString(a), NatToString(b), NatToString(c), NatToString(d)]
    ensures ':' !in s
  {
    var parts := [NatToString(a), NatToString(b), NatToString(c), NatToString(d)];
    forall k | 0 <= k < 4 ensures '.' !in parts[k] {
      DigitsHaveNo(parts[k], '.');
    }
    SplitJoin(parts, '.');
    JoinAvoids(parts, '.', ':');
    Join(parts, '.')
  }

  /**
   * `getWifiIpAddress`: no address without WiFi information or for the
   * all-zero address; otherwise the octets printed lowest byte first.
   */
  function WifiIpAddress(ipInt: Option<Int32>): (r: Option<string>)
    ensures r.None? <==> ipInt.None? || ipInt.value == 0
  {
    match ipInt
    case None => None
    case Some(x) =>
      if x == 0 then None
      else Some(DottedQuad(Octet(x, 0), Octet(x, 1), Octet(x, 2), Octet(x, 3)))
  }

  /** The shift amounts `8 * k` as powers of two. */
  lemma ByteShifts()
    ensures Pow2(0) == 1 && Pow2(8) == 256 && Pow2(16) == 65536 && Pow2(24) == 16777216
  {
    assert Pow2(4) == 16;
    assert Pow2(8) == 256;
    assert Pow2(12) == 4096;
    assert Pow2(16) == 65536;
    assert Pow2(20) == 1048576;
  }

  /** Octet `k` is byte `k` of the base-256 expansion. */
  lemma OctetsAreDigits(x: Int32)
    ensures Octet(x, 0) == x % 256
    ensures Octet(x, 1) == (x / 256) % 256
    ensures Octet(x, 2) == (x / 256 / 256) % 256
    ensures Octet(x, 3) == (x / 256 / 256 / 256) % 256
  {
    ByteShifts();
    assert x / 65536 == x / 256 / 256;
    assert x / 16777216 == x / 256 / 256 / 256;
  }

  /** The remainder modulo 2^32 is determined by any decomposition with a remainder in range. */
  lemma ModTwoTo32(x: int, q: int, r: int)
    requires 0 <= r < TwoTo32 && x == TwoTo32 * q + r
    ensures x % TwoTo32 == r
  {
  }

  /** The octets, weighted lowest byte first, give back the address's unsigned 32-bit value. */
  lemma OctetsRoundTrip(x: Int32)
    ensures Octet(x, 0) + 256 * Octet(x, 1) + 65536 * Octet(x, 2) + 16777216 * Octet(x, 3) == x % TwoTo32
  {
    OctetsAreDigits(x);
    var q1 := x / 256;
    var q2 := q1 / 256;
    var q3 := q2 / 256;
    var q4 := q3 / 256;
    assert x == x % 256 + 256 * q1;
    assert q1 == q1 % 256 + 256 * q2;
    assert q2 == q2 % 256 + 256 * q3;
    assert q3 == q3 % 256 + 256 * q4;
    ModTwoTo32(x, q4, x % 256 + 256 * (q1 % 256) + 65536 * (q2 % 256) + 16777216 * (q3 % 256));
  }

  /** Reads a dotted quad back into its four numbers. */
  function ParseDottedQuad(s: string): Option<seq<nat>> {
    var parts := Split(s, '.');
    if |parts| == 4 && forall k | 0 <= k < 4 :: 1 <= |parts[k]| && AllDigits(parts[k]) then
      Some([ParseNat(parts[0]), ParseNat(parts[1]), ParseNat(parts[2]), ParseNat(parts[3])])
    else None
  }

  /** Printing four numbers as a dotted quad and reading it back gives the numbers. */
  lemma DottedQuadParses(a: nat, b: nat, c: nat, d: nat)
    ensures ParseDottedQuad(DottedQuad(a, b, c, d)) == Some([a, b, c, d])
  {
    ParseNatToString(a);
    ParseNatToString(b);
    ParseNatToString(c);
    ParseNatToString(d);
  }

  /** The WiFi address text determines its octets: parsing it gives them back in order. */
  lemma WifiAddressParses(x: Int32)
    requires x != 0
    ensures ParseDottedQuad(WifiIpAddress(Some(x)).value) == Some([Octet(x, 0), Octet(x, 1), Octet(x, 2), Octet(x, 3)])
  {
    DottedQuadParses(Octet(x, 0), Octet(x, 1), Octet(x, 2), Octet(x, 3));
  }

  /** One address of a network interface. */
  datatype InetAddress = InetAddress(isLoopback: bool, isIPv4: bool, hostAddress: string)

  /** The addresses of one interface, in enumeration order. */
  type NetworkInterface = seq<InetAddress>

  predicate Usable(a: InetAddress) {
    !a.isLoopback && a.isIPv4
  }

  /** The host address of the first usable address, if any. */
  function FirstUsable(addrs: seq<InetAddress>): (r: Option<string>)
    ensures r.None? <==> forall i | 0 <= i < |addrs| :: !Usable(addrs[i])
    ensures r.Some? ==>
      exists k | 0 <= k < |addrs| ::
        Usable(addrs[k]) && r.value == addrs[k].hostAddress
        && forall j | 0 <= j < k :: !Usable(addrs[j])
    decreases |addrs|
  {
    if |addrs| == 0 then None
    else if Usable(addrs[0]) then Some(addrs[0].hostAddress)
    else
      var r := FirstUsable(addrs[1..]);
      assert forall i | 1 <= i < |addrs| :: addrs[i] == addrs[1..][i - 1];
      r
  }

  /** All addresses, interface by interface. */
  function Flatten(ifaces: seq<NetworkInterface>): seq<InetAddress>
    decreases |ifaces|
  {
    if |ifaces| == 0 then [] else ifaces[0] + Flatten(ifaces[1..])
  }

  /** Skipping an unusable address at the front does not change the first usable one. */
  lemma SkipUnusable(a: InetAddress, rest: seq<InetAddress>)
    requires !Usable(a)
    ensures FirstUsable([a] + rest) == FirstUsable(rest)
  {
    assert ([a] + rest)[1..] == rest;
  }

  /** A usable address at the front is the one chosen. */
  lemma TakeUsable(a: InetAddress, rest: seq<InetAddress>)
    requires Usable(a)
    ensures FirstUsable([a] + rest) == Some(a.hostAddress)
  {
  }

  lemma FlattenFrom(ifaces: seq<NetworkInterface>, i: nat)
    requires i < |ifaces|
    ensures Flatten(ifaces[i..]) == ifaces[i] + Flatten(ifaces[i + 1..])
  {
    assert ifaces[i..][1..] == ifaces[i + 1..];
  }

  lemma PeelAddress(addresses: seq<InetAddress>, j: nat, rest: seq<InetAddress>)
    requires j < |addresses|
    ensures addresses[j..] + rest == [addresses[j]] + (addresses[j + 1..] + rest)
  {
    assert addresses[j..] == [addresses[j]] + addresses[j + 1..];
  }

  /**
   * The fallback scan of `getLocalIpAddress` as written: interfaces in
   * order, addresses in order, returning the first non-loopback IPv4 one.
   */
  method ScanInterfaces(ifaces: seq<NetworkInterface>) returns (r: Option<string>)
    ensures r == FirstUsable(Flatten(ifaces))
  {
    var i := 0;
    while i < |ifaces|
      invariant 0 <= i <= |ifaces|
      invariant FirstUsable(Flatten(ifaces)) == FirstUsable(Flatten(ifaces[i..]))
    {
      var addresses := ifaces[i];
      var rest := Flatten(ifaces[i + 1..]);
      FlattenFrom(ifaces, i);
      var j := 0;
      while j < |addresses|
        invariant 0 <= j <= |addresses|
        invariant FirstUsable(Flatten(ifaces)) == FirstUsable(addresses[j..] + rest)
      {
        var address := addresses[j];
        PeelAddress(addresses, j, rest);
        if !address.isLoopback && address.isIPv4 {
          TakeUsable(address, addresses[j + 1..] + rest);
          return Some(address.hostAddress);
        }
        SkipUnusable(address, addresses[j + 1..] + rest);
        j := j + 1;
      }
      assert addresses[j..] + rest == rest;
      i := i + 1;
    }
    r := None;
  }

  /** `getLocalIpAddress`: the WiFi address when there is one, else the interface scan. */
  function LocalIpAddress(wifi: Option<Int32>, ifaces: Option<seq<NetworkInterface>>): (r: Option<string>)
    ensures WifiIpAddress(wifi).Some? ==> r == WifiIpAddress(wifi)
    ensures WifiIpAddress(wifi).None? && ifaces.None? ==> r.None?
    ensures WifiIpAddress(wifi).None? && ifaces.Some? ==> r == FirstUsable(Flatten(ifaces.value))
  {
    match WifiIpAddress(wifi)
    case Some(ip) => Some(ip)
    case None =>
      match ifaces
      case None => None
      case Some(list) => FirstUsable(Flatten(list))
  }

  const NotConnected: string := "Not connected to WiFi"

  /**
   * `getWebSocketUrl`: a `ws://` URL naming the address and port, or the
   * placeholder text when there is no address.
   */
  function WebSocketUrl(ip: Option<string>, port: Int32): (url: string)
    ensures ip.None? ==> url == "Not connected to WiFi"
    ensures ip.Some? ==> StartsWith(url, "ws://")
    ensures ip.Some? && ':' !in ip.value ==> ParseWebSocketUrl(url) == Some(Endpoint(ip.value, port))
  {
    match ip
    case Some(host) =>
      var url := "ws://" + host + ":" + IntToString(port);
      assert url[..5] == "ws://";
      HostUrlParses(host, port);
      url
    case None => NotConnected
  }

  datatype Endpoint = Endpoint(host: string, port: int)

  /** Reads a `ws://host:port` URL; `None` for anything else. */
  function ParseWebSocketUrl(url: string): Option<Endpoint> {
    if !StartsWith(url, "ws://") then None
    else
      var parts := Split(url[5..], ':');
      if |parts| != 2 then None
      else
        match ParseInt(parts[1])
        case Some(port) => Some(Endpoint(parts[0], port))
        case None => None
  }

  /** With an address the text is a URL naming that host and port; without one it is not a URL. */
  lemma WebSocketUrlParses(ip: Option<string>, port: Int32)
    requires ip.Some? ==> ':' !in ip.value
    ensures ParseWebSocketUrl(WebSocketUrl(ip, port)) == (if ip.Some? then Some(Endpoint(ip.value, port)) else None)
  {
    if ip.Some? {
      assert WebSocketUrl(ip, port) == "ws://" + ip.value + ":" + IntToString(port);
      HostUrlParses(ip.value, port);
    } else {
      assert WebSocketUrl(ip, port) == NotConnected;
      NotConnectedIsNoUrl();
    }
  }

  /** The placeholder text does not start with the `ws://` scheme. */
  lemma NotConnectedIsNoUrl()
    ensures ParseWebSocketUrl(NotConnected) == None
  {
    var u := NotConnected;
    assert u[0] == 'N';
    assert !StartsWith(u, "ws://") by {
      assert u[..5][0] == 'N' && "ws://"[0] == 'w';
    }
  }

  lemma HostUrlParses(host: string, port: Int32)
    ensures ':' !in host ==> ParseWebSocketUrl("ws://" + host + ":" + IntToString(port)) == Some(Endpoint(host, port))
  {
    if ':' in host {
      return;
    }
    var p := IntToString(port);
    var tail := host + [':'] + p;
    var url := "ws://" + host + ":" + p;
    assert url == "ws://" + tail;
    assert url[..5] == "ws://";
    assert url[5..] == tail;
    IntTextHasNo(port, ':');
    SplitAt(host, ':', p);
    SplitWithout(p, ':');
    assert Split(tail, ':') == [host, p];
    ParseIntToString(port);
  }

  lemma IntTextHasNo(i: int, c: char)
    requires !IsDigit(c) && c != '-'
    ensures c !in IntToString(i)
  {
    if i < 0 {
      var p := IntToString(i);
      assert p == "-" + NatToString(-i);
      DigitsHaveNo(NatToString(-i), c);
    } else {
      DigitsHaveNo(NatToString(i), c);
    }
  }

  /** A WiFi address never contains ':', so its URL always parses back. */
  lemma WifiAddressHasNoColon(x: Int32)
    requires x != 0
    ensures ':' !in WifiIpAddress(Some(x)).value
  {
  }

  lemma {:induction false} JoinAvoids(parts: seq<string>, sep: char, c: char)
    requires 1 <= |parts| && c != sep
    requires forall k | 0 <= k < |parts| :: AllDigits(parts[k])
    requires !IsDigit(c)
    ensures c !in Join(parts, sep)
    decreases |parts|
  {
    DigitsHaveNo(parts[0], c);
    if |parts| > 1 {
      JoinAvoids(parts[1..], sep, c);
    }
  }
}

=== FILE: scan_data.dfy ===
/**
 * The scan result record and the barcode symbology enumeration
 * (`data/ScanResult.kt`), with the mapping from ML Kit's format codes.
 */
module ScanData {
  import opened Wrappers

  /** The fourteen symbologies, in declaration order; `Unknown` is last. */
  datatype BarcodeFormat =
    | QrCode | Code128 | Code39 | Code93 | Codabar | Ean8 | Ean13
    | Itf | UpcA | UpcE | Pdf417 | Aztec | DataMatrix | Unknown

  /** `BarcodeFormat.values()`. */
  const AllFormats: seq<BarcodeFormat> :=
    [QrCode, Code128, Code39, Code93, Codabar, Ean8, Ean13,
     Itf, UpcA, UpcE, Pdf417, Aztec, DataMatrix, Unknown]

  /** An immutable detection: the decoded text, its symbology and when it was accepted (ms). */
  datatype ScanResult = ScanResult(rawValue: string, format: BarcodeFormat, timestamp: int)

  // The `Barcode.FORMAT_*` constants of ML Kit's barcode API.
  const FormatCode128: int := 1
  const FormatCode39: int := 2
  const FormatCode93: int := 4
  const FormatCodabar: int := 8
  const FormatDataMatrix: int := 16
  const FormatEan13: int := 32
  const FormatEan8: int := 64
  const FormatItf: int := 128
  const FormatQrCode: int := 256
  const FormatUpcA: int := 512
  const FormatUpcE: int := 1024
  const FormatPdf417: int := 2048
  const FormatAztec: int := 4096

  /** The thirteen codes the mapping recognises. */
  const RecognisedCodes: set<int> :=
    {FormatQrCode, FormatCode128, FormatCode39, FormatCode93, FormatCodabar,
     FormatEan8, FormatEan13, FormatItf, FormatUpcA, FormatUpcE,
     FormatPdf417, FormatAztec, FormatDataMatrix}

  /** The ML Kit code a symbology corresponds to; `Unknown` has none. */
  function MLKitCode(f: BarcodeFormat): Option<int> {
    match f
    case QrCode => Some(FormatQrCode)
    case Code128 => Some(FormatCode128)
    case Code39 => Some(FormatCode39)
    case Code93 => Some(FormatCode93)
    case Codabar => Some(FormatCodabar)
    case Ean8 => Some(FormatEan8)
    case Ean13 => Some(FormatEan13)
    case Itf => Some(FormatItf)
    case UpcA => Some(FormatUpcA)
    case UpcE => Some(FormatUpcE)
    case Pdf417 => Some(FormatPdf417)
    case Aztec => Some(FormatAztec)
    case DataMatrix => Some(FormatDataMatrix)
    case Unknown => None
  }

  /** `BarcodeFormat.fromMLKitFormat`: total, with `Unknown` as the fallback. */
  function FromMLKitFormat(code: int): (f: BarcodeFormat)
    ensures f == Unknown <==> code !in RecognisedCodes
    ensures f != Unknown ==> MLKitCode(f) == Some(code)
  {
    if code == FormatQrCode then QrCode
    else if code == FormatCode128 then Code128
    else if code == FormatCode39 then Code39
    else if code == FormatCode93 then Code93
    else if code == FormatCodabar then Codabar
    else if code == FormatEan8 then Ean8
    else if code == FormatEan13 then Ean13
    else if code == FormatItf then Itf
    else if code == FormatUpcA then UpcA
    else if code == FormatUpcE then UpcE
    else if code == FormatPdf417 then Pdf417
    else if code == FormatAztec then Aztec
    else if code == FormatDataMatrix then DataMatrix
    else Unknown
  }

  /** Every recognised symbology is produced by exactly its own ML Kit code. */
  lemma FromMLKitFormatInverts(f: BarcodeFormat)
    ensures f != Unknown <==> MLKitCode(f).Some?
    ensures MLKitCode(f).Some? ==> MLKitCode(f).value in RecognisedCodes
    ensures MLKitCode(f).Some? ==> FromMLKitFormat(MLKitCode(f).value) == f
  {
  }

  /** The thirteen recognised codes are pairwise distinct: no two symbologies share a code. */
  lemma MLKitCodeInjective(f: BarcodeFormat, g: BarcodeFormat)
    requires MLKitCode(f).Some? && MLKitCode(f) == MLKitCode(g)
    ensures f == g
  {
  }

  /** The enumeration has exactly fourteen values, each listed once, with `Unknown` last. */
  lemma AllFormatsEnumerates(f: BarcodeFormat)
    ensures |AllFormats| == 14 && AllFormats[13] == Unknown
    ensures f in AllFormats
    ensures forall i, j | 0 <= i < j < |AllFormats| :: AllFormats[i] != AllFormats[j]
  {
  }
}

=== FILE: scanner_screen.dfy ===
/**
 * The controller logic of `ui/ScannerScreen.kt` as an event-driven state
 * machine: the server is (re)started on port 8080 when the screen is first
 * composed, every detection is broadcast, and the result card pauses and
 * resumes scanning. The local IP address is an input of the launch event.
 */
module ScannerScreen {
  import opened Wrappers
  import opened ScanData
  import opened ScreenCore
  import Analyzer
  import Server
  import Network

  const FixedPort: int := 8080

  datatype Screen = Screen(pane: ResultPane, server: ServerPane)

  datatype Out = Out(screen: Screen, actions: seq<Action>)

  /**
   * Outcomes the platform decides. `localIp` stands for
   * `Network.LocalIpAddress` of the device's WiFi and interface state when
   * the URL is computed; the flags say which library calls throw.
   */
  datatype Env = Env(localIp: Option<string>, startThrows: bool, stopThrows: bool, sendThrows: bool)

  /** The first composition, before any effect: no result, no server, empty URL. */
  function Initial(camera: Option<Analyzer.State>): (s: Screen)
    ensures Inv(s) && !s.pane.showResult && s.server.wsServer.None?
  {
    Screen(ResultPane(None, false, camera), ServerPane(None, 0, ""))
  }

  predicate Inv(s: Screen) {
    PaneInv(s.pane)
  }

  /** The scanning overlay is drawn exactly when no result card is shown. */
  predicate OverlayVisible(s: Screen) {
    !s.pane.showResult
  }

  /** The status chip is drawn whenever a URL was recorded. */
  predicate StatusVisible(s: Screen) {
    |s.server.serverUrl| > 0
  }

  /**
   * `LaunchedEffect(Unit)`: stop any previous manager, build a new one and
   * start it on 8080; the URL is recorded only when `start` returned true.
   */
  function Launch(s: Screen, env: Env): (o: Out)
    ensures o.screen.pane == s.pane
    ensures o.actions == ReleasePrevious(s.server, env.stopThrows)
    ensures o.screen.server.wsServer.Some?
    ensures var m := o.screen.server.wsServer.value;
      var r := Server.Start(Server.NewManager(FixedPort), FixedPort, env.startThrows);
      && m == r.manager
      && (r.started <==> !env.startThrows)
      && (r.started ==> Server.IsRunning(m) && m.server.value.port == FixedPort)
      && o.screen.server.serverUrl == (if r.started then Network.WebSocketUrl(env.localIp, FixedPort) else s.server.serverUrl)
    ensures Inv(s) ==> Inv(o.screen)
  {
    var released := ReleasePrevious(s.server, env.stopThrows);
    var r := Server.Start(Server.NewManager(FixedPort), FixedPort, env.startThrows);
    var url := if r.started then Network.WebSocketUrl(env.localIp, FixedPort) else s.server.serverUrl;
    Out(s.(server := ServerPane(Some(r.manager), CountAfter(s.server.connectedClients, r.notices), url)), released)
  }

  /** `onBarcodeDetected`: show the result, broadcast its value, pause scanning. */
  function OnDetected(s: Screen, r: ScanResult, env: Env): (o: Out)
    ensures o.screen.pane.scanResult == Some(r) && o.screen.pane.showResult
    ensures !OverlayVisible(o.screen)
    ensures o.screen.pane.camera.Some? ==> !o.screen.pane.camera.value.isScanning
    ensures o.screen.server == s.server
    ensures o.actions == BroadcastVia(s.server, r.rawValue, env.sendThrows)
    ensures Inv(s) ==> Inv(o.screen)
  {
    Out(Screen(Present(s.pane, r), s.server), BroadcastVia(s.server, r.rawValue, env.sendThrows))
  }

  /** A decoded frame: the analyzer filters it and an accepted result goes to `onBarcodeDetected`. */
  function OnFrame(s: Screen, batch: seq<Analyzer.Barcode>, now: int, env: Env): (o: Out)
    ensures Inv(s) ==> Inv(o.screen)
    ensures Inv(s) && s.pane.showResult ==> o == Out(s, [])
    ensures var (pane, emitted) := Decode(s.pane, batch, now);
      && (emitted.None? ==> o == Out(s.(pane := pane), []))
      && (emitted.Some? ==> o == OnDetected(s.(pane := pane), emitted.value, env))
  {
    var (pane, emitted) := Decode(s.pane, batch, now);
    match emitted
    case None => Out(s.(pane := pane), [])
    case Some(r) => OnDetected(s.(pane := pane), r, env)
  }

  /** `onDismiss`: hide and clear the card, resume scanning. */
  function OnDismiss(s: Screen): (o: Out)
    ensures !o.screen.pane.showResult && o.screen.pane.scanResult.None? && OverlayVisible(o.screen)
    ensures o.screen.pane.camera.Some? ==> o.screen.pane.camera.value == Analyzer.Initial
    ensures o.screen.server == s.server && o.actions == []
    ensures Inv(s) ==> Inv(o.screen)
  {
    Out(s.(pane := Dismiss(s.pane)), [])
  }

  function OnOpenUrl(s: Screen): (o: Out)
    ensures o.screen == s
    ensures o.actions != [] ==> s.pane.scanResult.Some? && IsWebUrl(s.pane.scanResult.value.rawValue)
    ensures Inv(s) && OpenUrlOffered(s.pane) ==> o.actions == [OpenBrowser(s.pane.scanResult.value.rawValue)]
  {
    Out(s, OpenUrl(s.pane))
  }

  /** `onDispose`: stop the camera and the server. */
  function OnDispose(s: Screen, env: Env): (o: Out)
    ensures o.screen.pane.camera.None?
    ensures o.screen.server.wsServer.Some? ==> !Server.IsRunning(o.screen.server.wsServer.value)
    ensures o.actions == []
    ensures Inv(s) ==> Inv(o.screen)
  {
    Out(Screen(StopCamera(s.pane), StopServer(s.server, env.stopThrows)), [])
  }

  function OnClientOpened(s: Screen, c: Server.Conn): (o: Out)
    ensures Inv(s) ==> Inv(o.screen)
    ensures Synced(s.server) ==> Synced(o.screen.server)
    ensures o.screen.server == ClientOpened(s.server, c)
    ensures o.screen.pane == s.pane && o.actions == []
  {
    Out(s.(server := ClientOpened(s.server, c)), [])
  }

  function OnClientClosed(s: Screen, c: Server.Conn): (o: Out)
    ensures Inv(s) ==> Inv(o.screen)
    ensures Synced(s.server) ==> Synced(o.screen.server)
    ensures o.screen.server == ClientClosed(s.server, c)
    ensures o.screen.pane == s.pane && o.actions == []
  {
    Out(s.(server := ClientClosed(s.server, c)), [])
  }

  // ---------------------------------------------------------------------------

  datatype Event =
    | Launched(env: Env)
    | Frame(batch: seq<Analyzer.Barcode>, now: int, env: Env)
    | Dismissed
    | OpenUrlTapped
    | Disposed(env: Env)
    | ClientOpen(conn: Server.Conn)
    | ClientClose(conn: Server.Conn)

  function Handle(s: Screen, e: Event): Out {
    match e
    case Launched(env) => Launch(s, env)
    case Frame(batch, now, env) => OnFrame(s, batch, now, env)
    case Dismissed => OnDismiss(s)
    case OpenUrlTapped => OnOpenUrl(s)
    case Disposed(env) => OnDispose(s, env)
    case ClientOpen(c) => OnClientOpened(s, c)
    case ClientClose(c) => OnClientClosed(s, c)
  }

  function RunEvents(s: Screen, events: seq<Event>): Screen
    decreases |events|
  {
    if |events| == 0 then s else RunEvents(Handle(s, events[0]).screen, events[1..])
  }

  /**
   * Across any sequence of events the card is up exactly when a result is
   * stored, and the analyzer stays paused while it is up.
   */
  lemma {:induction false} InvariantHolds(s: Screen, events: seq<Event>)
    requires Inv(s)
    ensures Inv(RunEvents(s, events))
    decreases |events|
  {
    if |events| > 0 {
      var next := Handle(s, events[0]).screen;
      assert Inv(next);
      InvariantHolds(next, events[1..]);
    }
  }

  /**
   * After the first launch the status chip shows exactly when `start`
   * returned true, with the URL of `getWebSocketUrl`, which is the
   * "Not connected to WiFi" text when no address was found.
   */
  lemma StatusAfterLaunch(camera: Option<Analyzer.State>, env: Env)
    ensures var o := Launch(Initial(camera), env).screen;
      && (StatusVisible(o) <==> !env.startThrows)
      && (!env.startThrows ==> o.server.serverUrl == Network.WebSocketUrl(env.localIp, FixedPort))
      && (!env.startThrows && env.localIp.None? ==> o.server.serverUrl == "Not connected to WiFi")
  {
  }

  /** After a successful launch, one client connecting shows 1 and its leaving shows 0 again. */
  lemma ConnectThenDisconnect(camera: Option<Analyzer.State>, env: Env, c: Server.Conn)
    requires !env.startThrows
    ensures var o1 := Launch(Initial(camera), env).screen;
      var o2 := OnClientOpened(o1, c).screen;
      var o3 := OnClientClosed(o2, c).screen;
      && o1.server.connectedClients == 0
      && o2.server.connectedClients == 1 && c in o2.server.wsServer.value.server.value.connections
      && o3.server.connectedClients == 0 && Server.ConnectedClients(o3.server.wsServer.value) == 0
  {
  }

  /** While a result is shown, frames are ignored: no second detection until dismissal. */
  lemma NoDetectionWhileShown(s: Screen, batch: seq<Analyzer.Barcode>, now: int, env: Env)
    requires Inv(s) && s.pane.showResult
    ensures OnFrame(s, batch, now, env) == Out(s, [])
  {
  }

  /**
   * A frame decoded while scanning whose first acceptable entry is `k`: the
   * card shows that entry, scanning pauses, and every connected client is
   * sent exactly its value (nothing is sent without clients or a manager).
   */
  lemma DetectionReachesClient(s: Screen, batch: seq<Analyzer.Barcode>, now: int, env: Env, k: nat)
    requires Inv(s) && s.pane.camera.Some? && s.pane.camera.value.isScanning
    requires k < |batch| && Analyzer.Accepts(s.pane.camera.value, batch[k], now)
    requires forall j | 0 <= j < k :: !Analyzer.Accepts(s.pane.camera.value, batch[j], now)
    ensures var o := OnFrame(s, batch, now, env);
      var v := batch[k].rawValue.value;
      && o.screen.pane.scanResult == Some(ScanResult(v, FromMLKitFormat(batch[k].format), now))
      && o.screen.pane.showResult && !OverlayVisible(o.screen)
      && !o.screen.pane.camera.value.isScanning
      && o.screen.pane.camera.value.lastScannedValue == v
      && o.screen.server == s.server
      && (s.server.wsServer.None? ==> o.actions == [])
      && (s.server.wsServer.Some? && Server.ConnectedClients(s.server.wsServer.value) > 0 && !env.sendThrows ==>
            o.actions == [Broadcast(Server.Delivered(s.server.wsServer.value.server.value.connections, v))])
      && (s.server.wsServer.Some? && Server.ConnectedClients(s.server.wsServer.value) == 0 ==>
            o.actions == [Broadcast(Server.NoClients)])
  {
    Analyzer.FirstAcceptedWins(s.pane.camera.value, batch, now, k);
  }
}

=== FILE: scanner_screen_new.dfy ===
/**
 * The controller logic of `ui/ScannerScreenNew.kt`: the mode and port are
 * collected from the settings store, the server exists only in WiFi mode
 * and is rebuilt whenever either value changes, and a detection is routed
 * by mode. The settings store's emissions and the mode selector are events.
 */
module ScannerScreenNew {
  import opened Wrappers
  import opened Ints
  import opened ScanData
  import opened Modes
  import opened Settings
  import opened ScreenCore
  import Analyzer
  import Server
  import Network

  /**
   * `mode` and `port` are the values the screen last collected from the
   * store (the keys of its launched effect); until the first emission they
   * are the collectors' initial values, WiFi and 8080.
   */
  datatype Screen = Screen(
    prefs: Prefs,
    mode: ScanMode,
    port: Int32,
    showModeSelector: bool,
    pane: ResultPane,
    server: ServerPane)

  datatype Out = Out(screen: Screen, actions: seq<Action>)

  /**
   * Outcomes the platform decides. `localIp` stands for
   * `Network.LocalIpAddress` of the device's WiFi and interface state when
   * the URL is computed; the flags say which library calls throw.
   */
  datatype Env = Env(localIp: Option<string>, startThrows: bool, stopThrows: bool, sendThrows: bool)

  predicate Inv(s: Screen) {
    && PaneInv(s.pane)
    && (s.mode != WifiWebSocket ==> s.server.wsServer.None?)
  }

  /** The scanning overlay is drawn when neither the result card nor the mode selector is up. */
  predicate OverlayVisible(s: Screen) {
    !s.pane.showResult && !s.showModeSelector
  }

  /** The server status chip is drawn only in WiFi mode with a recorded URL. */
  predicate StatusVisible(s: Screen) {
    s.mode == WifiWebSocket && |s.server.serverUrl| > 0
  }

  /**
   * The launched effect for the current mode and port. In WiFi mode the old
   * manager is stopped, a new one is built and started on `port`, and the
   * URL is recorded and persisted only if `start` returned true. In any
   * other mode the manager is stopped and the reference cleared.
   */
  function ModeEffect(s: Screen, env: Env): (o: Out)
    ensures o.screen.pane == s.pane && o.screen.mode == s.mode && o.screen.port == s.port
    ensures o.screen.showModeSelector == s.showModeSelector
    ensures o.actions == ReleasePrevious(s.server, env.stopThrows)
    ensures s.mode != WifiWebSocket ==>
      o.screen.server == s.server.(wsServer := None) && o.screen.prefs == s.prefs
    ensures s.mode == WifiWebSocket ==>
      var r := Server.Start(Server.NewManager(s.port), s.port, env.startThrows);
      && o.screen.server.wsServer == Some(r.manager)
      && (r.started ==> Server.IsRunning(r.manager) && r.manager.server.value.port == s.port)
      && (r.started ==>
            && o.screen.server.serverUrl == Network.WebSocketUrl(env.localIp, s.port)
            && o.screen.prefs == SetLastServerUrl(s.prefs, o.screen.server.serverUrl))
      && (!r.started ==> o.screen.server.serverUrl == s.server.serverUrl && o.screen.prefs == s.prefs)
    ensures PaneInv(s.pane) ==> Inv(o.screen)
  {
    var released := ReleasePrevious(s.server, env.stopThrows);
    if s.mode == WifiWebSocket then
      var r := Server.Start(Server.NewManager(s.port), s.port, env.startThrows);
      var count := CountAfter(s.server.connectedClients, r.notices);
      if r.started then
        var url := Network.WebSocketUrl(env.localIp, s.port);
        Out(s.(server := ServerPane(Some(r.manager), count, url), prefs := SetLastServerUrl(s.prefs, url)), released)
      else
        Out(s.(server := ServerPane(Some(r.manager), count, s.server.serverUrl)), released)
    else
      Out(s.(server := s.server.(wsServer := None)), released)
  }

  /** First composition: the collectors' initial values (WiFi, 8080), then the effect for them. */
  function Launch(prefs: Prefs, camera: Option<Analyzer.State>, env: Env): (o: Out)
    ensures o.screen.mode == WifiWebSocket && o.screen.port == 8080
    ensures o.screen.server.wsServer.Some? && o.actions == []
    ensures !env.startThrows ==>
      && Server.IsRunning(o.screen.server.wsServer.value)
      && o.screen.server.wsServer.value.server.value.port == 8080
      && o.screen.server.serverUrl == Network.WebSocketUrl(env.localIp, 8080)
      && o.screen.prefs == SetLastServerUrl(prefs, o.screen.server.serverUrl)
    ensures env.startThrows ==> o.screen.server.serverUrl == "" && o.screen.prefs == prefs
    ensures Inv(o.screen) && !o.screen.pane.showResult
  {
    ModeEffect(Screen(prefs, WifiWebSocket, 8080, false, ResultPane(None, false, camera), ServerPane(None, 0, "")), env)
  }

  /**
   * The store emitted: the collected mode and port are refreshed, and the
   * effect runs again only if one of them changed.
   */
  function SettingsEmitted(s: Screen, env: Env): (o: Out)
    ensures o.screen.mode == ScanModeOf(s.prefs) && o.screen.port == ServerPortOf(s.prefs)
    ensures ScanModeOf(s.prefs) == s.mode && ServerPortOf(s.prefs) == s.port ==> o == Out(s, [])
    ensures !(ScanModeOf(s.prefs) == s.mode && ServerPortOf(s.prefs) == s.port) ==>
      o == ModeEffect(s.(mode := ScanModeOf(s.prefs), port := ServerPortOf(s.prefs)), env)
    ensures Inv(s) ==> Inv(o.screen)
  {
    var mode := ScanModeOf(s.prefs);
    var port := ServerPortOf(s.prefs);
    if mode == s.mode && port == s.port then Out(s, [])
    else ModeEffect(s.(mode := mode, port := port), env)
  }

  /** `onModeSelected`: persist the mode, close the sheet; the store then emits. */
  function SelectMode(s: Screen, m: ScanMode, env: Env): (o: Out)
    ensures o.screen.mode == m && !o.screen.showModeSelector
    ensures ScanModeOf(o.screen.prefs) == m
    ensures ServerPortOf(o.screen.prefs) == ServerPortOf(s.prefs)
    ensures o.screen.port == ServerPortOf(s.prefs)
    ensures Inv(s) && m != WifiWebSocket ==> o.screen.server.wsServer.None?
    ensures m != s.mode && s.server.wsServer.Some? ==>
      |o.actions| == 1 && o.actions[0].ReleasedServer? && !Server.IsRunning(o.actions[0].stopped)
    ensures m == WifiWebSocket && m != s.mode ==>
      var port := ServerPortOf(s.prefs);
      && o.screen.server.wsServer.Some?
      && (!env.startThrows && Server.ValidPort(port) ==>
            && Server.IsRunning(o.screen.server.wsServer.value)
            && o.screen.server.wsServer.value.server.value.port == port
            && o.screen.server.serverUrl == Network.WebSocketUrl(env.localIp, port))
    ensures Inv(s) ==> Inv(o.screen)
  {
    SetThenRead(s.prefs, m, 0, "");
    var prefs := SetScanMode(s.prefs, m);
    SettingsEmitted(s.(prefs := prefs, showModeSelector := false), env)
  }

  function OpenModeSelector(s: Screen): (o: Out)
    ensures o.screen.showModeSelector && !OverlayVisible(o.screen)
    ensures o.screen.pane == s.pane && o.screen.server == s.server && o.actions == []
    ensures o.screen.mode == s.mode && o.screen.port == s.port && o.screen.prefs == s.prefs
  {
    Out(s.(showModeSelector := true), [])
  }

  function CloseModeSelector(s: Screen): (o: Out)
    ensures !o.screen.showModeSelector
    ensures o.screen.pane == s.pane && o.screen.server == s.server && o.actions == []
    ensures o.screen.mode == s.mode && o.screen.port == s.port && o.screen.prefs == s.prefs
  {
    Out(s.(showModeSelector := false), [])
  }

  /** Where a detected value goes in each mode. */
  function Route(mode: ScanMode, server: ServerPane, value: string, sendThrows: bool): (a: seq<Action>)
    ensures mode == WifiWebSocket ==> a == BroadcastVia(server, value, sendThrows)
    ensures mode == CopyOnly ==> a == [CopyToClipboard(value)]
    ensures mode == BluetoothHid ==> a == [HidComingSoon]
  {
    match mode
    case WifiWebSocket => BroadcastVia(server, value, sendThrows)
    case BluetoothHid => [HidComingSoon]
    case CopyOnly => [CopyToClipboard(value)]
  }

  /** `onBarcodeDetected`: show the result, route it by mode, pause scanning. */
  function OnDetected(s: Screen, r: ScanResult, env: Env): (o: Out)
    ensures o.screen.pane.scanResult == Some(r) && o.screen.pane.showResult
    ensures o.screen.pane.camera.Some? ==> !o.screen.pane.camera.value.isScanning
    ensures !OverlayVisible(o.screen)
    ensures o.screen.server == s.server && o.screen.mode == s.mode
    ensures o.actions == Route(s.mode, s.server, r.rawValue, env.sendThrows)
    ensures Inv(s) ==> Inv(o.screen)
  {
    Out(s.(pane := Present(s.pane, r)), Route(s.mode, s.server, r.rawValue, env.sendThrows))
  }

  function OnFrame(s: Screen, batch: seq<Analyzer.Barcode>, now: int, env: Env): (o: Out)
    ensures Inv(s) ==> Inv(o.screen)
    ensures Inv(s) && s.pane.showResult ==> o == Out(s, [])
    ensures var (pane, emitted) := Decode(s.pane, batch, now);
      && (emitted.None? ==> o == Out(s.(pane := pane), []))
      && (emitted.Some? ==> o == OnDetected(s.(pane := pane), emitted.value, env))
  {
    var (pane, emitted) := Decode(s.pane, batch, now);
    match emitted
    case None => Out(s.(pane := pane), [])
    case Some(r) => OnDetected(s.(pane := pane), r, env)
  }

  function OnDismiss(s: Screen): (o: Out)
    ensures !o.screen.pane.showResult && o.screen.pane.scanResult.None?
    ensures OverlayVisible(o.screen) <==> !s.showModeSelector
    ensures o.screen.pane.camera.Some? ==> o.screen.pane.camera.value == Analyzer.Initial
    ensures o.screen.server == s.server && o.actions == []
    ensures Inv(s) ==> Inv(o.screen)
  {
    Out(s.(pane := Dismiss(s.pane)), [])
  }

  function OnOpenUrl(s: Screen): (o: Out)
    ensures o.screen == s
    ensures o.actions != [] ==> s.pane.scanResult.Some? && IsWebUrl(s.pane.scanResult.value.rawValue)
    ensures Inv(s) && OpenUrlOffered(s.pane) ==> o.actions == [OpenBrowser(s.pane.scanResult.value.rawValue)]
  {
    Out(s, OpenUrl(s.pane))
  }

  function OnDispose(s: Screen, env: Env): (o: Out)
    ensures o.screen.pane.camera.None?
    ensures o.screen.server.wsServer.Some? ==> !Server.IsRunning(o.screen.server.wsServer.value)
    ensures o.actions == []
    ensures Inv(s) ==> Inv(o.screen)
  {
    Out(s.(pane := StopCamera(s.pane), server := StopServer(s.server, env.stopThrows)), [])
  }

  function OnClientOpened(s: Screen, c: Server.Conn): (o: Out)
    ensures Inv(s) ==> Inv(o.screen)
    ensures Synced(s.server) ==> Synced(o.screen.server)
    ensures o.screen.server == ClientOpened(s.server, c)
    ensures o.screen.pane == s.pane && o.screen.mode == s.mode && o.actions == []
  {
    Out(s.(server := ClientOpened(s.server, c)), [])
  }

  function OnClientClosed(s: Screen, c: Server.Conn): (o: Out)
    ensures Inv(s) ==> Inv(o.screen)
    ensures Synced(s.server) ==> Synced(o.screen.server)
    ensures o.screen.server == ClientClosed(s.server, c)
    ensures o.screen.pane == s.pane && o.screen.mode == s.mode && o.actions == []
  {
    Out(s.(server := ClientClosed(s.server, c)), [])
  }

  // ---------------------------------------------------------------------------

  datatype Event =
    | Emitted(env: Env)
    | ModeSelected(mode: ScanMode, env: Env)
    | SelectorOpened
    | SelectorClosed
    | Frame(batch: seq<Analyzer.Barcode>, now: int, env: Env)
    | Dismissed
    | OpenUrlTapped
    | Disposed(env: Env)
    | ClientOpen(conn: Server.Conn)
    | ClientClose(conn: Server.Conn)

  function Handle(s: Screen, e: Event): Out {
    match e
    case Emitted(env) => SettingsEmitted(s, env)
    case ModeSelected(m, env) => SelectMode(s, m, env)
    case SelectorOpened => OpenModeSelector(s)
    case SelectorClosed => CloseModeSelector(s)
    case Frame(batch, now, env) => OnFrame(s, batch, now, env)
    case Dismissed => OnDismiss(s)
    case OpenUrlTapped => OnOpenUrl(s)
    case Disposed(env) => OnDispose(s, env)
    case ClientOpen(c) => OnClientOpened(s, c)
    case ClientClose(c) => OnClientClosed(s, c)
  }

  function RunEvents(s: Screen, events: seq<Event>): Screen
    decreases |events|
  {
    if |events| == 0 then s else RunEvents(Handle(s, events[0]).screen, events[1..])
  }

  /**
   * Across any sequence of events: the card is up exactly when a result is
   * stored, the analyzer is paused while it is up, and no server manager
   * exists outside WiFi mode.
   */
  lemma {:induction false} InvariantHolds(s: Screen, events: seq<Event>)
    requires Inv(s)
    ensures Inv(RunEvents(s, events))
    decreases |events|
  {
    if |events| > 0 {
      var next := Handle(s, events[0]).screen;
      assert Inv(next);
      InvariantHolds(next, events[1..]);
    }
  }

  /** Persisting the URL is itself a store change, but it does not restart the server. */
  lemma PersistingUrlDoesNotRestart(s: Screen, env: Env, env2: Env)
    requires ScanModeOf(s.prefs) == s.mode && ServerPortOf(s.prefs) == s.port
    ensures var o := ModeEffect(s, env);
      SettingsEmitted(o.screen, env2) == Out(o.screen, [])
  {
    var o := ModeEffect(s, env);
    SetThenRead(s.prefs, s.mode, s.port, o.screen.server.serverUrl);
  }

  /** The status chip is hidden outside WiFi mode, and shown after a successful start in WiFi mode. */
  lemma StatusFollowsMode(s: Screen, env: Env)
    ensures s.mode != WifiWebSocket ==> !StatusVisible(ModeEffect(s, env).screen)
    ensures s.mode == WifiWebSocket && Server.Start(Server.NewManager(s.port), s.port, env.startThrows).started
            ==> StatusVisible(ModeEffect(s, env).screen)
  {
  }

  /**
   * A failed restart keeps the previous URL: after the port changes to one
   * the socket address rejects, no server runs but the chip still shows the
   * old URL.
   */
  lemma FailedRestartKeepsOldUrl(s: Screen, env: Env)
    requires s.mode == WifiWebSocket && |s.server.serverUrl| > 0
    requires !Server.ValidPort(s.port)
    ensures var o := ModeEffect(s, env).screen;
      && !Server.IsRunning(o.server.wsServer.value)
      && StatusVisible(o)
      && o.server.serverUrl == s.server.serverUrl
  {
  }

  /**
   * A frame decoded while scanning whose first acceptable entry is `k`: the
   * card shows that entry, scanning pauses, and the value goes where the
   * current mode sends it.
   */
  lemma DetectionRouting(s: Screen, batch: seq<Analyzer.Barcode>, now: int, env: Env, k: nat)
    requires Inv(s) && s.pane.camera.Some? && s.pane.camera.value.isScanning
    requires k < |batch| && Analyzer.Accepts(s.pane.camera.value, batch[k], now)
    requires forall j | 0 <= j < k :: !Analyzer.Accepts(s.pane.camera.value, batch[j], now)
    ensures var o := OnFrame(s, batch, now, env);
      var v := batch[k].rawValue.value;
      && o.screen.pane.scanResult == Some(ScanResult(v, FromMLKitFormat(batch[k].format), now))
      && o.screen.pane.showResult && !OverlayVisible(o.screen)
      && !o.screen.pane.camera.value.isScanning
      && o.screen.server == s.server && o.screen.mode == s.mode
      && (s.mode == CopyOnly ==> o.actions == [CopyToClipboard(v)])
      && (s.mode == BluetoothHid ==> o.actions == [HidComingSoon])
      && (s.mode == WifiWebSocket && s.server.wsServer.Some? && !env.sendThrows
          && Server.ConnectedClients(s.server.wsServer.value) > 0
          ==> o.actions == [Broadcast(Server.Delivered(s.server.wsServer.value.server.value.connections, v))])
  {
    Analyzer.FirstAcceptedWins(s.pane.camera.value, batch, now, k);
  }
}

=== FILE: screen_core.dfy ===
/**
 * The UI-free state and handlers that `ui/ScannerScreen.kt` and
 * `ui/ScannerScreenNew.kt` share: the result card with the camera's
 * analyzer behind it, and the server handle with its status fields.
 * Platform side effects (broadcast, clipboard, browser) are returned as
 * labelled actions instead of being performed.
 */
module ScreenCore {
  import opened Wrappers
  import opened Text
  import opened ScanData
  import Analyzer
  import Server

  /** A side effect the screen hands to a collaborator. */
  datatype Action =
    | Broadcast(outcome: Server.BroadcastOutcome)
    | CopyToClipboard(text: string)
    | HidComingSoon
    | OpenBrowser(url: string)
    | ReleasedServer(stopped: Server.Manager)

  /**
   * The result card and the camera. `camera` is the camera manager's
   * analyzer: `None` before the camera starts and after `stopCamera`, when
   * `pauseScanning` and `resumeScanning` do nothing.
   */
  datatype ResultPane = ResultPane(scanResult: Option<ScanResult>, showResult: bool, camera: Option<Analyzer.State>)

  /** A card is up exactly when there is a result, and while it is up the analyzer is paused. */
  predicate PaneInv(p: ResultPane) {
    && (p.showResult <==> p.scanResult.Some?)
    && (p.showResult && p.camera.Some? ==> !p.camera.value.isScanning)
  }

  function PauseScanning(camera: Option<Analyzer.State>): (c: Option<Analyzer.State>)
    ensures c.Some? <==> camera.Some?
    ensures c.Some? ==> c.value == Analyzer.Pause(camera.value)
  {
    match camera
    case None => None
    case Some(a) => Some(Analyzer.Pause(a))
  }

  function ResumeScanning(camera: Option<Analyzer.State>): (c: Option<Analyzer.State>)
    ensures c.Some? <==> camera.Some?
    ensures c.Some? ==> c.value == Analyzer.Initial
  {
    match camera
    case None => None
    case Some(a) => Some(Analyzer.Resume(a))
  }

  /** The detection handler's common part: record and show the result, pause scanning. */
  function Present(p: ResultPane, r: ScanResult): (q: ResultPane)
    ensures q.scanResult == Some(r) && q.showResult
    ensures q.camera.Some? <==> p.camera.Some?
    ensures q.camera.Some? ==> !q.camera.value.isScanning
    ensures PaneInv(q)
  {
    ResultPane(Some(r), true, PauseScanning(p.camera))
  }

  /** `onDismiss`: hide and clear the result, then resume scanning. */
  function Dismiss(p: ResultPane): (q: ResultPane)
    ensures !q.showResult && q.scanResult.None?
    ensures q.camera.Some? <==> p.camera.Some?
    ensures q.camera.Some? ==> q.camera.value == Analyzer.Initial
    ensures PaneInv(q)
  {
    ResultPane(None, false, ResumeScanning(p.camera))
  }

  /**
   * One decoded frame reaching the analyzer's success listener. A result,
   * if any, is returned for the screen's detection handler.
   */
  function Decode(p: ResultPane, batch: seq<Analyzer.Barcode>, now: int): (r: (ResultPane, Option<ScanResult>))
    ensures p.camera.None? ==> r == (p, None)
    ensures PaneInv(p) && p.showResult ==> r == (p, None)
    ensures r.0.scanResult == p.scanResult && r.0.showResult == p.showResult
    ensures r.0.camera.Some? <==> p.camera.Some?
    ensures r.1.Some? ==> p.camera.Some? && p.camera.value.isScanning && r.1.value.timestamp == now
    ensures p.camera.Some? ==>
      var step := Analyzer.OnDecodeSuccess(p.camera.value, batch, now);
      r.1 == step.emitted && r.0.camera == Some(step.state)
  {
    match p.camera
    case None => (p, None)
    case Some(a) =>
      var step := Analyzer.OnDecodeSuccess(a, batch, now);
      (p.(camera := Some(step.state)), step.emitted)
  }

  /** `cameraManager?.stopCamera()`: the analyzer is released. */
  function StopCamera(p: ResultPane): (q: ResultPane)
    ensures q.camera.None? && q.scanResult == p.scanResult && q.showResult == p.showResult
  {
    p.(camera := None)
  }

  predicate IsWebUrl(s: string) {
    StartsWith(s, "http://") || StartsWith(s, "https://")
  }

  /** The card offers "Open URL" only for an http(s) value. */
  predicate OpenUrlOffered(p: ResultPane) {
    p.showResult && p.scanResult.Some? && IsWebUrl(p.scanResult.value.rawValue)
  }

  /** `onOpenUrl`: the browser is asked to open the value only if it starts with http:// or https://. */
  function OpenUrl(p: ResultPane): (a: seq<Action>)
    ensures |a| <= 1
    ensures |a| == 1 <==> p.scanResult.Some? && IsWebUrl(p.scanResult.value.rawValue)
    ensures |a| == 1 ==> a[0] == OpenBrowser(p.scanResult.value.rawValue)
  {
    match p.scanResult
    case Some(r) => if IsWebUrl(r.rawValue) then [OpenBrowser(r.rawValue)] else []
    case None => []
  }

  // ---------------------------------------------------------------------------

  /** The server handle and the status fields the callbacks maintain. */
  datatype ServerPane = ServerPane(wsServer: Option<Server.Manager>, connectedClients: nat, serverUrl: string)

  /** `connectedClients` after the owner's callbacks for `notices` ran: the last count reported. */
  function CountAfter(count: nat, notices: seq<Server.Notice>): (n: nat)
    ensures (forall i | 0 <= i < |notices| :: notices[i].ErrorReported?) ==> n == count
    ensures |notices| > 0 && !notices[|notices| - 1].ErrorReported? ==> n == notices[|notices| - 1].count
    decreases |notices|
  {
    if |notices| == 0 then count
    else
      var before := CountAfter(count, notices[..|notices| - 1]);
      match notices[|notices| - 1]
      case ClientConnected(k) => k
      case ClientDisconnected(k) => k
      case ErrorReported(_) => before
  }

  /** The displayed count agrees with the server's registry. */
  predicate Synced(sp: ServerPane) {
    sp.wsServer.Some? ==> sp.connectedClients == Server.ConnectedClients(sp.wsServer.value)
  }

  /** A client connects to the current server; `onClientConnected` updates the displayed count. */
  function ClientOpened(sp: ServerPane, c: Server.Conn): (q: ServerPane)
    ensures Synced(sp) ==> Synced(q)
    ensures sp.wsServer.Some? ==> q.wsServer == Some(Server.OnOpen(sp.wsServer.value, c).manager)
    ensures sp.wsServer.Some? && Server.IsRunning(sp.wsServer.value) && c !in sp.wsServer.value.server.value.connections ==>
      q.connectedClients == Server.ConnectedClients(q.wsServer.value) == Server.ConnectedClients(sp.wsServer.value) + 1
    ensures q.serverUrl == sp.serverUrl && (q.wsServer.Some? <==> sp.wsServer.Some?)
  {
    match sp.wsServer
    case None => sp
    case Some(m) =>
      var ev := Server.OnOpen(m, c);
      ServerPane(Some(ev.manager), CountAfter(sp.connectedClients, ev.notices), sp.serverUrl)
  }

  /** A client disconnects; `onClientDisconnected` updates the displayed count. */
  function ClientClosed(sp: ServerPane, c: Server.Conn): (q: ServerPane)
    ensures Synced(sp) ==> Synced(q)
    ensures sp.wsServer.Some? ==> q.wsServer == Some(Server.OnClose(sp.wsServer.value, c).manager)
    ensures sp.wsServer.Some? && Server.IsRunning(sp.wsServer.value) && c in sp.wsServer.value.server.value.connections ==>
      q.connectedClients == Server.ConnectedClients(q.wsServer.value) == Server.ConnectedClients(sp.wsServer.value) - 1
    ensures q.serverUrl == sp.serverUrl && (q.wsServer.Some? <==> sp.wsServer.Some?)
  {
    match sp.wsServer
    case None => sp
    case Some(m) =>
      var ev := Server.OnClose(m, c);
      ServerPane(Some(ev.manager), CountAfter(sp.connectedClients, ev.notices), sp.serverUrl)
  }

  /** `wsServer?.broadcastBarcode(value)`: nothing without a manager. */
  function BroadcastVia(sp: ServerPane, value: string, sendThrows: bool): (a: seq<Action>)
    ensures sp.wsServer.None? ==> a == []
    ensures sp.wsServer.Some? ==> a == [Broadcast(Server.BroadcastBarcode(sp.wsServer.value, value, sendThrows).outcome)]
  {
    match sp.wsServer
    case None => []
    case Some(m) => [Broadcast(Server.BroadcastBarcode(m, value, sendThrows).outcome)]
  }

  /** `wsServer?.stop()` on the current manager, which stays referenced. */
  function StopServer(sp: ServerPane, stopThrows: bool): (q: ServerPane)
    ensures q.wsServer.Some? <==> sp.wsServer.Some?
    ensures q.wsServer.Some? ==> !Server.IsRunning(q.wsServer.value)
    ensures q.connectedClients == sp.connectedClients && q.serverUrl == sp.serverUrl
  {
    match sp.wsServer
    case None => sp
    case Some(m) => sp.(wsServer := Some(Server.Stop(m, stopThrows)))
  }

  /** Stopping the previous manager before it is replaced; the stopped manager is reported. */
  function ReleasePrevious(sp: ServerPane, stopThrows: bool): (a: seq<Action>)
    ensures sp.wsServer.None? ==> a == []
    ensures sp.wsServer.Some? ==> |a| == 1 && a[0].ReleasedServer? && !Server.IsRunning(a[0].stopped)
    ensures sp.wsServer.Some? ==> a[0].stopped == sp.wsServer.value.(server := None)
  {
    match sp.wsServer
    case None => []
    case Some(m) => [ReleasedServer(Server.Stop(m, stopThrows))]
  }
}

=== FILE: server.dfy ===
/**
 * The broadcast server lifecycle of `server/WebSocketServerManager.kt`.
 *
 * `server` is the nullable handle; the inner server's connection set is
 * changed only by the environment (a client opening or closing a socket),
 * modelled as the events `OnOpen` and `OnClose`. Whether `server.start()`,
 * `server.stop()` or `broadcast` throw is an input of the operation. The
 * owner's callbacks become a list of notices returned by each operation.
 */
module Server {
  import opened Wrappers
  import opened Ints

  /** An opaque client connection. */
  type Conn = nat

  /** The inner `BarcodeWebSocketServer`: the port it was built for and its open connections. */
  datatype Instance = Instance(port: Int32, connections: set<Conn>)

  /**
   * The manager. `ctorPort` is the constructor's `port` parameter, which the
   * manager never reads: `start` takes its own port.
   */
  datatype Manager = Manager(ctorPort: Int32, server: Option<Instance>)

  /** Calls of the owner's `onClientConnected`, `onClientDisconnected` and `onError`. */
  datatype Notice = ClientConnected(count: nat) | ClientDisconnected(count: nat) | ErrorReported(fault: Fault)

  datatype Fault = InvalidPort | StartFailed | BroadcastFailed | TransportFailed

  datatype StartResult = StartResult(manager: Manager, started: bool, notices: seq<Notice>)

  /** What `broadcastBarcode` did: returned early, handed the text to every connection, or failed. */
  datatype BroadcastOutcome = NoClients | Delivered(recipients: set<Conn>, payload: string) | Failed

  datatype BroadcastResult = BroadcastResult(outcome: BroadcastOutcome, notices: seq<Notice>)

  datatype Event = Event(manager: Manager, notices: seq<Notice>)

  /** A manager as constructed: no server yet. */
  function NewManager(port: Int32): (m: Manager)
    ensures !IsRunning(m) && ConnectedClients(m) == 0
  {
    Manager(port, None)
  }

  /** `isRunning`: the handle is non-null. */
  predicate IsRunning(m: Manager) {
    m.server.Some?
  }

  /** `connectedClients`: the size of the connection set, 0 without a server. */
  function ConnectedClients(m: Manager): (n: nat)
    ensures !IsRunning(m) ==> n == 0
    ensures IsRunning(m) ==> n == |m.server.value.connections|
  {
    match m.server
    case None => 0
    case Some(inst) => |inst.connections|
  }

  /** `InetSocketAddress(port)` rejects ports outside 0..65535, so the inner constructor throws for them. */
  predicate ValidPort(port: Int32) {
    0 <= port <= 65535
  }

  /**
   * `start(port)`. Refused while a server exists. Otherwise the inner
   * server is constructed, which fails for an invalid port before the handle
   * is assigned; then `server?.start()` runs, and if it throws the handle
   * stays set although `false` is returned.
   */
  function Start(m: Manager, port: Int32, startThrows: bool): (r: StartResult)
    ensures IsRunning(m) ==> r == StartResult(m, false, [])
    ensures !IsRunning(m) && !ValidPort(port) ==> r == StartResult(m, false, [ErrorReported(InvalidPort)])
    ensures !IsRunning(m) && ValidPort(port) ==>
      && r.manager.server == Some(Instance(port, {}))
      && r.started == !startThrows
      && r.notices == (if startThrows then [ErrorReported(StartFailed)] else [])
    ensures r.manager.ctorPort == m.ctorPort
    ensures r.started ==> !IsRunning(m) && IsRunning(r.manager) && r.manager.server.value.port == port
  {
    if m.server.Some? then StartResult(m, false, [])
    else if !ValidPort(port) then StartResult(m, false, [ErrorReported(InvalidPort)])
    else
      var withHandle := m.(server := Some(Instance(port, {})));
      if startThrows then StartResult(withHandle, false, [ErrorReported(StartFailed)])
      else StartResult(withHandle, true, [])
  }

  /**
   * `stop()`: the handle ends null whether or not the inner stop throws;
   * the exception is only logged, so no notice is produced.
   */
  function Stop(m: Manager, stopThrows: bool): (r: Manager)
    ensures !IsRunning(r) && ConnectedClients(r) == 0
    ensures r.ctorPort == m.ctorPort
  {
    m.(server := None)
  }

  /**
   * `broadcastBarcode(barcode)`: with no connected client it returns at once
   * and reports nothing; otherwise every connection is handed exactly the
   * text, or the exception is passed to `onError` and swallowed.
   */
  function BroadcastBarcode(m: Manager, barcode: string, sendThrows: bool): (r: BroadcastResult)
    ensures ConnectedClients(m) == 0 <==> r.outcome == NoClients
    ensures r.outcome == NoClients ==> r.notices == []
    ensures r.outcome.Delivered? ==>
      IsRunning(m) && r.outcome.recipients == m.server.value.connections
      && r.outcome.payload == barcode && r.notices == []
    ensures r.outcome.Failed? <==> ConnectedClients(m) > 0 && sendThrows
    ensures r.outcome.Failed? ==> r.notices == [ErrorReported(BroadcastFailed)]
  {
    if ConnectedClients(m) == 0 then BroadcastResult(NoClients, [])
    else if sendThrows then BroadcastResult(Failed, [ErrorReported(BroadcastFailed)])
    else BroadcastResult(Delivered(m.server.value.connections, barcode), [])
  }

  /**
   * A client completed its handshake. The library adds the connection first
   * and calls `onOpen` only if it was new; `onOpen` reports the set's size.
   */
  function OnOpen(m: Manager, c: Conn): (r: Event)
    ensures !IsRunning(m) ==> r == Event(m, [])
    ensures IsRunning(m) ==> IsRunning(r.manager) && r.manager.server.value.connections == m.server.value.connections + {c}
    ensures IsRunning(m) && c !in m.server.value.connections ==>
      ConnectedClients(r.manager) == ConnectedClients(m) + 1 && r.notices == [ClientConnected(ConnectedClients(r.manager))]
    ensures IsRunning(m) && c in m.server.value.connections ==> r == Event(m, [])
    ensures r.manager.ctorPort == m.ctorPort && (IsRunning(m) ==> r.manager.server.value.port == m.server.value.port)
  {
    match m.server
    case None => Event(m, [])
    case Some(inst) =>
      if c in inst.connections then Event(m, [])
      else
        var next := inst.(connections := inst.connections + {c});
        Event(m.(server := Some(next)), [ClientConnected(|next.connections|)])
  }

  /**
   * A connection closed, for whatever reason. The library removes it first
   * and calls `onClose` only if it was present; `onClose` reports the new size.
   */
  function OnClose(m: Manager, c: Conn): (r: Event)
    ensures !IsRunning(m) ==> r == Event(m, [])
    ensures IsRunning(m) ==> IsRunning(r.manager) && r.manager.server.value.connections == m.server.value.connections - {c}
    ensures IsRunning(m) && c in m.server.value.connections ==>
      ConnectedClients(r.manager) == ConnectedClients(m) - 1 && r.notices == [ClientDisconnected(ConnectedClients(r.manager))]
    ensures IsRunning(m) && c !in m.server.value.connections ==> r == Event(m, [])
    ensures r.manager.ctorPort == m.ctorPort && (IsRunning(m) ==> r.manager.server.value.port == m.server.value.port)
  {
    match m.server
    case None => Event(m, [])
    case Some(inst) =>
      if c !in inst.connections then Event(m, [])
      else
        var next := inst.(connections := inst.connections - {c});
        Event(m.(server := Some(next)), [ClientDisconnected(|next.connections|)])
  }

  /** `onMessage`: the text a client sends is ignored. */
  function OnMessage(m: Manager, c: Conn, message: string): (r: Event)
    ensures r.manager == m && r.notices == []
  {
    Event(m, [])
  }

  /** The inner server's `onError` forwards to the owner. */
  function OnServerError(m: Manager): (r: Event)
    ensures r.manager == m && r.notices == [ErrorReported(TransportFailed)]
  {
    Event(m, [ErrorReported(TransportFailed)])
  }

  // ---------------------------------------------------------------------------
  // Lifecycle properties.

  /** `start` while running changes nothing and reports nothing. */
  lemma StartWhileRunningRefused(m: Manager, port: Int32, startThrows: bool)
    requires IsRunning(m)
    ensures Start(m, port, startThrows) == StartResult(m, false, [])
  {
  }

  /** `stop` is idempotent, and afterwards `start` on a valid port succeeds again. */
  lemma StopThenStart(m: Manager, port: Int32, t1: bool, t2: bool)
    requires ValidPort(port)
    ensures Stop(Stop(m, t1), t2) == Stop(m, t1)
    ensures Start(Stop(m, t1), port, false).started
    ensures IsRunning(Start(Stop(m, t1), port, false).manager)
  {
  }

  /** The port served is always the argument of `start`, whatever the constructor was given. */
  lemma PortIsStartArgument(ctorPort: Int32, port: Int32, startThrows: bool)
    requires ValidPort(port)
    ensures var r := Start(NewManager(ctorPort), port, startThrows);
      IsRunning(r.manager) && r.manager.server.value.port == port
  {
  }

  /** A failure inside `server.start()` leaves the handle set, so `isRunning` reads true. */
  lemma FailedStartStillRunning(m: Manager, port: Int32)
    requires !IsRunning(m) && ValidPort(port)
    ensures var r := Start(m, port, true);
      !r.started && IsRunning(r.manager) && r.notices == [ErrorReported(StartFailed)]
  {
  }

  /** Closing the same connection twice reports and decrements only once. */
  lemma CloseIdempotent(m: Manager, c: Conn)
    ensures var once := OnClose(m, c);
      OnClose(once.manager, c) == Event(once.manager, [])
  {
  }

  /** Every count notice equals the connection count right after the event. */
  lemma NoticesMatchCount(m: Manager, c: Conn)
    ensures forall n | n in OnOpen(m, c).notices :: n == ClientConnected(ConnectedClients(OnOpen(m, c).manager))
    ensures forall n | n in OnClose(m, c).notices :: n == ClientDisconnected(ConnectedClients(OnClose(m, c).manager))
  {
  }

  // ---------------------------------------------------------------------------
  // The connection registry over a history of client events.

  datatype ClientEvent = Opened(conn: Conn) | Closed(conn: Conn) | Message(conn: Conn, text: string)

  function Apply(m: Manager, events: seq<ClientEvent>): Manager
    decreases |events|
  {
    if |events| == 0 then m
    else Deliver(Apply(m, events[..|events| - 1]), events[|events| - 1])
  }

  /** The manager after one client event. */
  function Deliver(m: Manager, e: ClientEvent): Manager {
    match e
    case Opened(c) => OnOpen(m, c).manager
    case Closed(c) => OnClose(m, c).manager
    case Message(c, text) => OnMessage(m, c, text).manager
  }

  /** One event registers its own connection on open, drops it on close, and touches no other. */
  lemma DeliverConnections(m: Manager, e: ClientEvent)
    requires IsRunning(m)
    ensures IsRunning(Deliver(m, e))
    ensures forall c: Conn :: c in Deliver(m, e).server.value.connections
                           <==> if e == Opened(c) then true
                                else if e == Closed(c) then false
                                else c in m.server.value.connections
  {
  }

  /** Whether the last open-or-close event about `c` was an open; `None` if there was none. */
  function LastOpenClose(events: seq<ClientEvent>, c: Conn): Option<bool>
    decreases |events|
  {
    if |events| == 0 then None
    else
      var last := events[|events| - 1];
      if last == Opened(c) then Some(true)
      else if last == Closed(c) then Some(false)
      else LastOpenClose(events[..|events| - 1], c)
  }

  /**
   * Registry consistency: while the server runs, a connection is registered
   * exactly when its most recent open/close event was an open (or, with no
   * such event, when it was registered at the start). A second close of the
   * same connection therefore changes nothing.
   */
  lemma {:induction false} RegistryConsistent(m: Manager, events: seq<ClientEvent>)
    requires IsRunning(m)
    ensures IsRunning(Apply(m, events))
    ensures forall c: Conn :: c in Apply(m, events).server.value.connections
                           <==> LastOpenClose(events, c).GetOr(c in m.server.value.connections)
    decreases |events|
  {
    if |events| > 0 {
      var prefix := events[..|events| - 1];
      var last := events[|events| - 1];
      RegistryConsistent(m, prefix);
      var prev := Apply(m, prefix);
      assert Apply(m, events) == Deliver(prev, last);
      DeliverConnections(prev, last);
      forall c: Conn
        ensures c in Apply(m, events).server.value.connections
            <==> LastOpenClose(events, c).GetOr(c in m.server.value.connections)
      {
        assert LastOpenClose(events, c) ==
          if last == Opened(c) then Some(true)
          else if last == Closed(c) then Some(false)
          else LastOpenClose(prefix, c);
      }
    }
  }

  /**
   * After any history of handshakes and disconnects, a broadcast reaches
   * exactly the connections opened (or present at the start) and not since
   * closed, and carries the value unchanged.
   */
  lemma BroadcastAfterHistory(m: Manager, events: seq<ClientEvent>, v: string, sendThrows: bool)
    requires IsRunning(m)
    ensures var r := BroadcastBarcode(Apply(m, events), v, sendThrows);
      && (ConnectedClients(Apply(m, events)) == 0 <==> r.outcome == NoClients)
      && (ConnectedClients(Apply(m, events)) > 0 && !sendThrows ==>
            && r.outcome.Delivered? && r.outcome.payload == v
            && forall c: Conn :: c in r.outcome.recipients
                             <==> LastOpenClose(events, c).GetOr(c in m.server.value.connections))
  {
    RegistryConsistent(m, events);
  }

  // ---------------------------------------------------------------------------

  /**
   * Start on 9000 with no clients: the broadcast is a no-op. One client
   * connects (count 1), receives exactly "ABC123", disconnects (count 0);
   * after `stop` the server is not running and a new `start` on 9000 succeeds.
   */
  lemma BroadcastScenario(ctorPort: Int32, c: Conn)
    ensures var s0 := Start(NewManager(ctorPort), 9000, false);
      && s0.started
      && BroadcastBarcode(s0.manager, "ABC123", false) == BroadcastResult(NoClients, [])
      && var s1 := OnOpen(s0.manager, c);
      && s1.notices == [ClientConnected(1)]
      && ConnectedClients(s1.manager) == 1
      && BroadcastBarcode(s1.manager, "ABC123", false).outcome == Delivered({c}, "ABC123")
      && var s2 := OnClose(s1.manager, c);
      && ConnectedClients(s2.manager) == 0
      && s2.notices == [ClientDisconnected(0)]
      && var s3 := Stop(s2.manager, false);
      && !IsRunning(s3)
      && Start(s3, 9000, false).started
  {
    var s0 := Start(NewManager(ctorPort), 9000, false);
    var s1 := OnOpen(s0.manager, c);
    assert s1.manager.server.value.connections == {c};
    var s2 := OnClose(s1.manager, c);
    assert s2.manager.server.value.connections == {};
  }
}

=== FILE: settings.dfy ===
/**
 * The persisted settings (`data/AppSettings.kt`). The preferences store is a
 * pair of finite maps, one per value type, keyed by preference name; the
 * `Flow` readers become functions of the store and the `suspend` editors
 * become functions returning the edited store.
 */
module Settings {
  import opened Ints
  import opened Modes

  const ScanModeKey: string := "scan_mode"
  const ServerPortKey: string := "server_port"
  const LastServerUrlKey: string := "last_server_url"

  const DefaultServerPort: Int32 := 8080

  datatype Prefs = Prefs(ints: map<string, Int32>, strings: map<string, string>)

  const EmptyPrefs: Prefs := Prefs(map[], map[])

  /** `scanMode`: the stored ordinal, defaulting to 0; an ordinal outside the enumeration reads as WiFi. */
  function ScanModeOf(p: Prefs): (m: ScanMode)
    ensures ScanModeKey !in p.ints ==> m == WifiWebSocket
    ensures ScanModeKey in p.ints && 0 <= p.ints[ScanModeKey] < 3 ==> Ordinal(m) == p.ints[ScanModeKey]
    ensures ScanModeKey in p.ints && !(0 <= p.ints[ScanModeKey] < 3) ==> m == WifiWebSocket
  {
    var index := if ScanModeKey in p.ints then p.ints[ScanModeKey] else 0;
    GetOrNull(index).GetOr(WifiWebSocket)
  }

  /** `serverPort`: the stored port, 8080 when none was stored; the stored value is not range-checked. */
  function ServerPortOf(p: Prefs): (port: Int32)
    ensures ServerPortKey in p.ints ==> port == p.ints[ServerPortKey]
    ensures ServerPortKey !in p.ints ==> port == DefaultServerPort
  {
    if ServerPortKey in p.ints then p.ints[ServerPortKey] else DefaultServerPort
  }

  /** `lastServerUrl`: the stored text, "" when none was stored. */
  function LastServerUrlOf(p: Prefs): (url: string)
    ensures LastServerUrlKey in p.strings ==> url == p.strings[LastServerUrlKey]
    ensures LastServerUrlKey !in p.strings ==> url == ""
  {
    if LastServerUrlKey in p.strings then p.strings[LastServerUrlKey] else ""
  }

  /** `setScanMode`: stores the ordinal under its own key and nothing else. */
  function SetScanMode(p: Prefs, mode: ScanMode): (q: Prefs)
    ensures q.strings == p.strings
    ensures q.ints.Keys == p.ints.Keys + {ScanModeKey} && q.ints[ScanModeKey] == Ordinal(mode)
    ensures forall k | k in p.ints && k != ScanModeKey :: q.ints[k] == p.ints[k]
  {
    p.(ints := p.ints[ScanModeKey := Ordinal(mode)])
  }

  /** `setServerPort`: any `Int` is accepted; there is no range check. */
  function SetServerPort(p: Prefs, port: Int32): (q: Prefs)
    ensures q.strings == p.strings
    ensures q.ints.Keys == p.ints.Keys + {ServerPortKey} && q.ints[ServerPortKey] == port
    ensures forall k | k in p.ints && k != ServerPortKey :: q.ints[k] == p.ints[k]
  {
    p.(ints := p.ints[ServerPortKey := port])
  }

  /** `setLastServerUrl`: stores the URL under its own key and nothing else. */
  function SetLastServerUrl(p: Prefs, url: string): (q: Prefs)
    ensures q.ints == p.ints
    ensures q.strings.Keys == p.strings.Keys + {LastServerUrlKey} && q.strings[LastServerUrlKey] == url
    ensures forall k | k in p.strings && k != LastServerUrlKey :: q.strings[k] == p.strings[k]
  {
    p.(strings := p.strings[LastServerUrlKey := url])
  }

  /** A store nobody has written reads as WiFi mode, port 8080 and an empty URL. */
  lemma Defaults()
    ensures ScanModeOf(EmptyPrefs) == WifiWebSocket
    ensures ServerPortOf(EmptyPrefs) == 8080
    ensures LastServerUrlOf(EmptyPrefs) == ""
  {
  }

  /** Each setter is read back by its own reader and leaves the other two readings unchanged. */
  lemma SetThenRead(p: Prefs, mode: ScanMode, port: Int32, url: string)
    ensures ScanModeOf(SetScanMode(p, mode)) == mode
    ensures ServerPortOf(SetScanMode(p, mode)) == ServerPortOf(p)
    ensures LastServerUrlOf(SetScanMode(p, mode)) == LastServerUrlOf(p)
    ensures ServerPortOf(SetServerPort(p, port)) == port
    ensures ScanModeOf(SetServerPort(p, port)) == ScanModeOf(p)
    ensures LastServerUrlOf(SetServerPort(p, port)) == LastServerUrlOf(p)
    ensures LastServerUrlOf(SetLastServerUrl(p, url)) == url
    ensures ScanModeOf(SetLastServerUrl(p, url)) == ScanModeOf(p)
    ensures ServerPortOf(SetLastServerUrl(p, url)) == ServerPortOf(p)
  {
    OrdinalRoundTrip(mode);
  }

  /** Every stored ordinal decodes to some mode; out-of-range ones (negative or at least 3) to WiFi. */
  lemma OutOfRangeModeIsWifi(p: Prefs, i: Int32)
    requires i < 0 || 3 <= i
    ensures ScanModeOf(p.(ints := p.ints[ScanModeKey := i])) == WifiWebSocket
  {
  }
}

=== FILE: text.dfy ===
/**
 * The string conversions the source gets from Kotlin string templates and
 * `String.format("%d")`, together with the parsers that invert them.
 */
module Text {
  import opened Wrappers

  predicate IsDigit(c: char) {
    '0' <= c <= '9'
  }

  predicate AllDigits(s: string) {
    forall i | 0 <= i < |s| :: IsDigit(s[i])
  }

  predicate StartsWith(s: string, prefix: string) {
    |prefix| <= |s| && s[..|prefix|] == prefix
  }

  predicate EndsWith(s: string, suffix: string) {
    |suffix| <= |s| && s[|s| - |suffix|..] == suffix
  }

  function DigitChar(d: nat): (c: char)
    requires d < 10
    ensures IsDigit(c) && c as int - '0' as int == d
  {
    ('0' as int + d) as char
  }

  /** Decimal rendering of a natural number, without leading zeros. */
  function NatToString(n: nat): (s: string)
    ensures 1 <= |s| && AllDigits(s)
    ensures s[0] == '0' ==> n == 0
    decreases n
  {
    if n < 10 then [DigitChar(n)] else NatToString(n / 10) + [DigitChar(n % 10)]
  }

  /** Kotlin's `Int.toString()` as used by `"$port"`: a minus sign, then the magnitude. */
  function IntToString(i: int): (s: string)
    ensures 1 <= |s|
    ensures i < 0 <==> s[0] == '-'
  {
    if i < 0 then "-" + NatToString(-i) else NatToString(i)
  }

  function ParseNat(s: string): nat
    requires AllDigits(s)
    decreases |s|
  {
    if |s| == 0 then 0
    else ParseNat(s[..|s| - 1]) * 10 + (s[|s| - 1] as int - '0' as int)
  }

  /** Reads back what `IntToString` writes; `None` for anything else. */
  function ParseInt(s: string): Option<int> {
    if 2 <= |s| && s[0] == '-' && AllDigits(s[1..]) then
      var magnitude: int := ParseNat(s[1..]);
      Some(-magnitude)
    else if 1 <= |s| && AllDigits(s) then Some(ParseNat(s))
    else None
  }

  lemma {:induction false} ParseNatToString(n: nat)
    ensures ParseNat(NatToString(n)) == n
    decreases n
  {
    if n >= 10 {
      ParseNatToString(n / 10);
      var s := NatToString(n / 10) + [DigitChar(n % 10)];
      assert s[..|s| - 1] == NatToString(n / 10);
    }
  }

  lemma ParseIntToString(i: int)
    ensures ParseInt(IntToString(i)) == Some(i)
  {
    var s := IntToString(i);
    if i < 0 {
      var m := NatToString(-i);
      assert s == "-" + m;
      assert s[1..] == m;
      assert 2 <= |s| && s[0] == '-' && AllDigits(s[1..]);
      ParseNatToString(-i);
      assert ParseNat(s[1..]) == -i;
    } else {
      assert s == NatToString(i);
      assert IsDigit(s[0]);
      ParseNatToString(i);
    }
  }

  /** Splits `s` at every occurrence of `sep`; always at least one part. */
  function Split(s: string, sep: char): (parts: seq<string>)
    ensures 1 <= |parts|
    decreases |s|
  {
    if |s| == 0 then [""]
    else
      var rest := Split(s[1..], sep);
      if s[0] == sep then [""] + rest else [[s[0]] + rest[0]] + rest[1..]
  }

  /** Concatenates `parts`, with `sep` between consecutive parts. */
  function Join(parts: seq<string>, sep: char): string
    requires 1 <= |parts|
    decreases |parts|
  {
    if |parts| == 1 then parts[0] else parts[0] + [sep] + Join(parts[1..], sep)
  }

  lemma {:induction false} SplitWithout(a: string, sep: char)
    requires sep !in a
    ensures Split(a, sep) == [a]
    decreases |a|
  {
    if |a| > 0 {
      SplitWithout(a[1..], sep);
      assert [a[0]] + a[1..] == a;
    }
  }

  lemma {:induction false} SplitAt(a: string, sep: char, b: string)
    requires sep !in a
    ensures Split(a + [sep] + b, sep) == [a] + Split(b, sep)
    decreases |a|
  {
    var s := a + [sep] + b;
    if |a| == 0 {
      assert s[1..] == b;
    } else {
      assert s[1..] == a[1..] + [sep] + b;
      SplitAt(a[1..], sep, b);
      assert [a[0]] + a[1..] == a;
    }
  }

  /** Joining separator-free parts and splitting again gives the parts back. */
  lemma {:induction false} SplitJoin(parts: seq<string>, sep: char)
    requires 1 <= |parts|
    requires forall k | 0 <= k < |parts| :: sep !in parts[k]
    ensures Split(Join(parts, sep), sep) == parts
    decreases |parts|
  {
    if |parts| == 1 {
      SplitWithout(parts[0], sep);
    } else {
      SplitJoin(parts[1..], sep);
      SplitAt(parts[0], sep, Join(parts[1..], sep));
      assert [parts[0]] + parts[1..] == parts;
    }
  }

  lemma DigitsHaveNo(s: string, c: char)
    requires AllDigits(s) && !IsDigit(c)
    ensures c !in s
  {
  }
}

=== FILE: wrappers.dfy ===
/** The optional value used wherever the Kotlin source has a nullable type. */
module Wrappers {

  datatype Option<+T> = None | Some(value: T) {

    /** Kotlin's `?:` elvis operator: the value, or `default` when absent. */
    function GetOr(default: T): T {
      match this
      case Some(v) => v
      case None => default
    }
  }
}
